=== FILE: README.md ===
# Toy catalogue data-access layer in Dafny

This project models the data-access layer of a toy-catalogue backend. The
backend keeps three document collections: toys, reviews and users. It
covers two services:

- **The toy service.** A filter bag becomes a criteria document
  (case-insensitive name match, JSON-parsed `inStock` equality, any-of
  labels). The query then sorts on at most one field, skips
  `pageIdx * pageSize` toys and limits to `pageSize`. The service also
  fetches, deletes, inserts and updates single toys, and pushes messages
  to a toy's `msgs` list or pulls them from it.
- **The review service.** Its query is an aggregation: `$match` on the
  author, then two `$lookup` + `$unwind` inner joins (user, then toy),
  then a `$project`. Deletion writes the owner/admin rule into the delete
  criteria. Insertion stores exactly three fields.

Each collection is a sequence of immutable records in natural order.
Each service call is a pure function from the collections and its
arguments to a `Result`: the new collection plus the returned value, or
the reason the call throws. A few things are passed in as parameters:
the id the store generates on insert, the clock readings, the output of
the message-id generator, and the logged-in caller.

Modules, one per file or concept:

| file | module | contents |
|---|---|---|
| results.dfy | `Results` | `Option`, `Result`, the failure kinds |
| object_id.dfy | `ObjectIds` | ObjectId text parsing, the timestamp held in an id |
| js_values.dfy | `JsValues` | JavaScript truthiness, `JSON.parse` of a parameter |
| text.dfy | `Text` | case-insensitive substring matching for `$regex` with option `i` |
| entities.dfy | `Users`, `Toys` | the documents, filter bag and save record; the first-match lookup |
| toy_criteria.dfy | `ToyCriteria` | `_buildCriteria` and how the store evaluates it |
| toy_sort.dfy | `ToySort` | `_buildSortOptions`, the store's key order, sorting |
| toy_query.dfy | `ToyQuery` | filter, sort, skip and limit |
| toy_service.dfy | `ToyService` | `get`, `remove`, `save`, `addToyMsg`, `removeToyMsg` |
| review_service.dfy | `ReviewService` | review `query`, `remove`, `add` |

Behaviour of the code worth noting:

- A non-owner who tries to delete a review gets `deletedCount` 0, not an
  error.
- A request with no logged-in user fails (`NoCaller`). It is not treated
  as an anonymous identity.
- `inStock` text outside the modelled JSON subset fails, as a `JSON.parse`
  failure does.
- `pageIdx` and `pageSize` are not validated. The store rejects a
  negative skip. `limit(0)` means no limit, and a negative limit caps the
  result at its magnitude.
- The review rows carry `txt`, `byUser` and `aboutToy`. The toy side
  projects `fullname`, which toys do not have.

## Model

| member | source | states |
|---|---|---|
| ObjectIds.Parse | api/review/review.service.js:65 | an id is accepted exactly when it is 24 hex digits of either case; the id keeps every digit's value; anything else fails with `InvalidObjectId` |
| ObjectIds.ParseOfCanonical | api/review/review.service.js:101 | the hex text of a stored id parses back to that same id |
| ObjectIds.Timestamp | api/toy/toy.service.js:41 | the creation time `get` reads from an id is whole seconds (a multiple of 1000 ms) below 2^32 seconds |
| ObjectIds.TimestampIsPrefix | api/toy/toy.service.js:41 | two ids report the same creation time exactly when their leading eight hex digits (four bytes) agree, so the time is a function of those digits alone and distinguishes them all |
| ObjectIds.OneSecondId | api/toy/toy.service.js:41 | an id starting `00000001` was created 1000 ms after the epoch |
| ObjectIds.LastSecondId | api/toy/toy.service.js:41 | an id starting `ffffffff` carries the last second four bytes can hold |
| JsValues.FalsyValues | api/toy/toy.service.js:160-162 | the falsy values are exactly `undefined`, `null`, `false`, `0` and `""`; any other value, the text `"false"` included, is truthy |
| JsValues.GivenIsTruthy | api/toy/toy.service.js:146 | an optional text field passes `if (x)` exactly when it is present and not empty |
| JsValues.ParseJson | api/toy/toy.service.js:150 | the modelled subset of `JSON.parse` accepts exactly `true`, `false`, `null` and integer numerals without a superfluous leading zero, optionally negative; every other text fails with `InvalidJson` |
| JsValues.ParseThenStringify | api/toy/toy.service.js:150 | every accepted text other than `-0` is exactly what `JSON.stringify` writes for its value, with integers kept exact |
| JsValues.NegativeZero | api/toy/toy.service.js:150 | `-0` parses to zero, which is written back as `0` |
| JsValues.ParseStringify | api/toy/toy.service.js:150 | `JSON.parse` inverts `JSON.stringify` on booleans, `null` and exact integers |
| JsValues.ParseBoolean | api/toy/toy.service.js:150 | only the texts `true` and `false` parse to booleans, each to its own value |
| Text.OccursIff | api/toy/toy.service.js:147 | the scanning substring search succeeds exactly when some position of the name starts a copy of the pattern |
| Text.MatchIgnoresCase | api/toy/toy.service.js:147 | the `i` option makes the match independent of the case of either side |
| Text.NameMatchesItself | api/toy/toy.service.js:147 | every name matches itself as a pattern |
| ToyCriteria.BuildCriteria | api/toy/toy.service.js:144-156 | the name entry is present iff `name` is truthy; the inStock entry iff `inStock` is defined; the labels entry iff `labels` is non-empty; it fails exactly when `inStock` is outside the modelled JSON subset; an empty bag gives the empty criteria |
| ToyCriteria.CriteriaMeaning | api/toy/toy.service.js:144-155 | a toy matches the built criteria iff all of these hold: its name contains the name pattern ignoring case; its stock flag is what the `inStock` text says (`null` meaning no flag); it shares a label with the list; absent entries constrain nothing |
| ToyCriteria.SameCriteria | api/toy/toy.service.js:144-156 | the criteria read only `name`, `inStock` and `labels`; paging and sorting parameters do not change them |
| ToyCriteria.EmptyBagMatchesAll | api/toy/toy.service.js:144-155 | an empty filter bag builds empty criteria, and every toy matches them |
| ToyCriteria.ExactNamePasses | api/toy/toy.service.js:146-148 | a toy whose name equals the pattern passes the name condition |
| ToyCriteria.LabelsAnyOf | api/toy/toy.service.js:152-154 | with a non-empty label list, a toy matches iff some label of the toy is in the list |
| ToyCriteria.AnyInIff | api/toy/toy.service.js:153 | the store's `$in` scan succeeds iff some stored label is in the requested list |
| ToyCriteria.InStockMeaning | api/toy/toy.service.js:149-151 | equality with the parsed `inStock` holds iff the text is the toy's boolean written out, or `null` for a toy without a flag; numbers match nothing |
| ToySort.BuildSortOptions | api/toy/toy.service.js:159-164 | no sort key when `sortBy` or its `type` is falsy; otherwise exactly the key `type`, with direction -1 iff `desc` is truthy and 1 otherwise |
| ToySort.FalseTextSortsDescending | api/toy/toy.service.js:162 | the request text `"false"` for `desc` is truthy, so it sorts descending |
| ToySort.KeyLeTotal | api/toy/toy.service.js:24 | any two sort keys are comparable |
| ToySort.KeyLeTrans | api/toy/toy.service.js:24 | the key order is transitive |
| ToySort.SortToys | api/toy/toy.service.js:24 | sorting returns a permutation of its input in which each toy may precede every later one under the chosen field and direction |
| ToySort.ApplySort | api/toy/toy.service.js:24 | an empty sort document keeps natural order; a key orders by it; either way the toys are a permutation |
| ToySort.SortOrderedIsIdentity | api/toy/toy.service.js:24 | sorting an already ordered sequence leaves it unchanged, so re-sorting is idle |
| ToyQuery.Filter | api/toy/toy.service.js:23 | `find` keeps exactly the stored toys that match the criteria |
| ToyQuery.PageIdx | api/toy/toy.service.js:17 | an absent `pageIdx` is 0; a given one is used as it is, negative values included |
| ToyQuery.PageSize | api/toy/toy.service.js:17 | an absent `pageSize` is 4; a given one is used as it is, 0 and negative values included |
| ToyQuery.Limit | api/toy/toy.service.js:26 | a page size of 0 means no limit; any other size caps the result at its magnitude |
| ToyQuery.Page | api/toy/toy.service.js:25-26 | skip and limit return the consecutive elements that start at the skip offset, with the length the limit and the remaining elements allow |
| ToyQuery.FirstPage | api/toy/toy.service.js:25-26 | skipping nothing and limiting to `n` yields the first `n` elements, or all of them when there are fewer |
| ToyQuery.Query | api/toy/toy.service.js:13-35 | fails exactly on `inStock` outside the modelled JSON subset or a negative `pageIdx * pageSize`; every result is a stored toy the bag accepts; a non-zero page size bounds the result length; a sort key orders the result |
| ToyQuery.QueryUnfold | api/toy/toy.service.js:13-27 | when the query succeeds its result is exactly the page of the filtered, sorted matches that starts at `pageIdx * pageSize` and holds `min(|pageSize|, remaining)` of them, or all remaining ones when the size is 0 |
| ToyQuery.QueryIsPageOfOrderedMatches | api/toy/toy.service.js:22-27 | result `i` is ordered match number `pageIdx * pageSize + i` |
| ToyQuery.PagesCoverMatches | api/toy/toy.service.js:17-27 | with a positive page size, every accepted toy appears on some page of the modelled (stable) order |
| ToyQuery.DefaultsGiveFirstFour | api/toy/toy.service.js:17 | with no parameters (`pageIdx` 0, `pageSize` 4) the query returns the first four toys in natural order |
| ToyQuery.QueryTwo | api/toy/toy.service.js:13-30 | over two toys of which only the first matches, the unsorted first page of four is exactly that toy |
| ToyQuery.TeddyBearExample | api/toy/toy.service.js:13-30 | `name: bear, inStock: true` over an in-stock "Teddy Bear" and an out-of-stock "Bear Trap" returns only the teddy |
| Toys.FindToy | api/toy/toy.service.js:74 | the document a `{ _id }` update acts on is the first with that id; there is none iff no toy has the id |
| Toys.FindToyUnique | api/toy/toy.service.js:74 | with unique ids, the first match for a toy's id is that toy |
| ToyService.Get | api/toy/toy.service.js:37-47 | fails iff the id is malformed or no toy has it; otherwise returns the stored toy with `createdAt` replaced by the time encoded in its id |
| ToyService.DeleteById | api/toy/toy.service.js:52 | `deleteOne` removes at most one toy, removes one iff some toy has the id, and keeps every toy with another id |
| ToyService.Remove | api/toy/toy.service.js:49-58 | fails only on a malformed id; `deletedCount` is 0 or 1, it is 1 iff the toy existed; with 0 the collection is unchanged, with 1 exactly the first toy with the id is cut out and the others keep their order |
| ToyService.RemoveThenGet | api/toy/toy.service.js:37-58 | with unique ids, a removed toy can no longer be fetched, and ids stay unique |
| ToyService.NewToy | api/toy/toy.service.js:83-90 | an insert stores only name, price, `inStock` (false unless true), labels (empty if absent), no messages, and the two timestamps |
| ToyService.Overwrite | api/toy/toy.service.js:66-74 | an update overwrites name, price, inStock, labels and updatedAt, and keeps id, messages and createdAt |
| ToyService.Save | api/toy/toy.service.js:60-100 | with no id: inserts at the end and returns the stored record, unless the generated id is taken. With an id: fails iff it is malformed or unmatched; otherwise overwrites the five fields of the first match, leaves every other toy unchanged, and echoes the request with `updatedAt` |
| ToyService.SavePreservesUniqueIds | api/toy/toy.service.js:60-100 | saving keeps toy ids unique |
| ToyService.InsertThenGet | api/toy/toy.service.js:37-47 | fetching an inserted toy by its id gives back the stored record, with `createdAt` read from the id |
| ToyService.UpdateThenGet | api/toy/toy.service.js:64-80 | after an update, fetching the toy shows the written fields and the messages it had before |
| ToyService.PushMsg | api/toy/toy.service.js:107-110 | `$push` appends the message to the first matching toy only; with no match nothing changes |
| ToyService.AddMsg | api/toy/toy.service.js:102-116 | fails only on a malformed toy id; the returned message carries the generated id; it ends the target toy's list; no other toy or field changes; an unknown toy is no error |
| ToyService.PullMsgs | api/toy/toy.service.js:123 | `$pull` keeps exactly the messages whose id differs |
| ToyService.PullFrom | api/toy/toy.service.js:121-124 | `updateOne` with `$pull` rewrites only the first toy with the id, and only its message list; no match changes nothing |
| ToyService.PullDistributes | api/toy/toy.service.js:123 | pulling from a concatenation pulls from each part, so the survivors keep their order |
| ToyService.PullAbsent | api/toy/toy.service.js:123 | a list without the id is left exactly as it was |
| ToyService.RemoveMsg | api/toy/toy.service.js:118-130 | fails only on a malformed toy id; returns `msgId`; the target's list keeps exactly the messages with another id; nothing else changes |
| ToyService.RemoveMsgIdempotent | api/toy/toy.service.js:118-130 | removing a message id twice has the effect of removing it once |
| ToyService.AddThenRemoveMsg | api/toy/toy.service.js:102-130 | adding a message under an unused id, then removing that id, restores the collection |
| ToyService.MsgOpsKeepIds | api/toy/toy.service.js:102-130 | message operations keep toy ids unique |
| ReviewService.BuildCriteria | api/review/review.service.js:97-104 | a truthy `byUserId` becomes equality on that parsed id, and malformed text fails; otherwise there is no condition |
| ReviewService.MatchReviews | api/review/review.service.js:16-18 | `$match` keeps exactly the reviews the criteria select |
| ReviewService.UsersWithId | api/review/review.service.js:19-29 | the user lookup collects exactly the users with the referenced id: none if none exists, at most one if ids are unique |
| ReviewService.ToysWithId | api/review/review.service.js:30-40 | the toy lookup collects exactly the toys with the referenced id: none if none exists, at most one if ids are unique |
| ReviewService.Row | api/review/review.service.js:41-49 | a projected row keeps the review's id and text, the user's id and `fullname`, and the toy's id with no `fullname` |
| ReviewService.RowsFor | api/review/review.service.js:27-40 | the two unwinds emit one row per (user, toy) pair |
| ReviewService.ResolveRows | api/review/review.service.js:19-40 | a review's rows are exactly its projection with each matching user and toy; there are none iff a reference dangles; at most one with unique ids |
| ReviewService.Join | api/review/review.service.js:19-49 | the joined rows are exactly the rows of the individual reviews; with unique user and toy ids there are no more rows than reviews |
| ReviewService.Query | api/review/review.service.js:9-58 | fails only on a malformed `byUserId`; every row is the projection of a selected stored review with an existing user and toy of the referenced ids |
| ReviewService.ResolvedReviewAppears | api/review/review.service.js:16-49 | a selected review whose user and toy exist appears in the output |
| ReviewService.DanglingReviewOmitted | api/review/review.service.js:19-40 | a review whose user or toy is missing yields no row, and the query still succeeds |
| ReviewService.AtMostOneRowPerReview | api/review/review.service.js:19-40 | with unique user and toy ids, there are no more rows than matched reviews |
| ReviewService.ToySideCarriesOnlyId | api/review/review.service.js:46-47 | no row carries a toy `fullname` |
| ReviewService.FilterByUser | api/review/review.service.js:97-104 | filtering by a user id yields only rows whose `byUser` is that user |
| ReviewService.DeleteCriteriaFor | api/review/review.service.js:60-70 | a malformed review id fails first; then a missing caller fails; with a caller it fails iff the review id is malformed, or the caller's id is malformed and the caller is not an admin; the criteria hit a review iff it has that id and the caller is its author or an admin |
| ReviewService.FindHit | api/review/review.service.js:72 | the document `deleteOne` acts on is the first one the criteria hit; there is none iff nothing is hit |
| ReviewService.DeleteOne | api/review/review.service.js:72 | `deleteOne` removes at most the first hit and never a review the criteria miss; with no hit the collection is unchanged |
| ReviewService.Remove | api/review/review.service.js:60-78 | a malformed review id fails even with no caller, a missing caller fails only after that; `deletedCount` is 0 or 1; it is 1 iff a review with that id exists that the caller may delete; with 0 nothing changes; no review with another id is removed |
| ReviewService.OwnerOrAdminDeletes | api/review/review.service.js:65-73 | the author or an admin deletes the review: the count is 1 and the review is gone |
| ReviewService.StrangerCannotDelete | api/review/review.service.js:65-73 | a non-admin who is not the author deletes nothing, gets 0 with no error, and the review remains |
| ReviewService.MalformedIdBeforeCaller | api/review/review.service.js:62-68 | with nobody logged in, a malformed review id such as `zz` fails as a malformed id, not as a missing caller |
| ReviewService.Add | api/review/review.service.js:80-95 | fails iff a reference is malformed or the generated id is taken; stores and returns exactly the two parsed references, the text and the id |
| ReviewService.AddPreservesUniqueIds | api/review/review.service.js:80-95 | adding keeps review ids unique |
| ReviewService.AddedDanglingReviewIsHidden | api/review/review.service.js:80-95 | a review about a toy that does not exist is accepted and then never appears in any query |
| ReviewService.AddThenAuthorRemoves | api/review/review.service.js:60-95 | adding a review, then removing it as its author, restores the collection with count 1 |

## Left out

- The memoised connection in `services/db.service.js` is left out. It is
  I/O and shared state, and so is the `testConnection` call made at import
  time. The collections are explicit values instead.
- Routing, CORS, static files, sockets and the controller's request
  shaping are left out. The filter bag arrives already typed.
  - The controller turns a missing `pageIdx` into `NaN`. That is not
    modelled.
  - The controller's `inStock = null` default makes the service compare
    `inStock` with `null`. The model expresses this as the text `"null"`,
    which keeps only toys without a stock flag.
- Access rules in route middleware are not modelled; the middleware
  code is not part of this model. Toy create, update and delete require
  an admin (`requireAuth`, `requireAdmin`). Adding or removing a toy
  message, and adding or deleting a review, only require a logged-in
  user (`requireAuth`).
- The request-scoped context storage is not modelled. The logged-in user
  is a `Caller` parameter, and a missing one is `NoCaller`. The storage
  is set up for every route (server.js:52), so reading it never fails by
  itself; a missing user fails only where its fields are read.
- Generated values are parameters: the message-id generator
  (`Math.random`), `Date.now` and the store's generated `_id`. Message
  ids are not assumed to be unique, because the code does not make them
  so.
- The bare `ObjectId(toy._id)` call on the update path depends on the
  driver version. It is modelled like `createFromHexString`.
- `$regex`: the store interprets `name` as a regular expression, so `.`
  matches any character and `^` anchors. The model treats the pattern as
  literal text. Case folding covers ASCII letters only.
- ToyQuery.Query: two gaps.
  - An invalid regular expression such as `(` makes the store reject the
    `find`, and `query` throws. The model returns a result instead,
    because regular expressions are not modelled.
  - `inStock` texts that `JSON.parse` accepts but the modelled subset does
    not (`" true"`, `"1.5"`, `"\"x\""`, `"[]"`) make the model fail, while
    `query` returns toys.
- JsValues.ParseJson: only `true`, `false`, `null` and integer numerals
  are accepted. Surrounding whitespace, strings, fractions, exponents,
  arrays and objects are valid JSON but fail here with `InvalidJson`.
  Numbers are exact integers, while `JSON.parse` yields a double:
  beyond 2^53 in magnitude JavaScript rounds, so `"9007199254740993"`
  becomes 9007199254740992. The `inStock` criteria are unaffected, since
  a number matches no toy.
- JsValues.ParseThenStringify: in JavaScript the round trip holds for
  every integer of magnitude at most 2^53, but not beyond it in general.
  There the model's exact integers differ from the rounded doubles, for
  example
  `"100000000000000000000000"` is written back as `1e+23`.
- JsValues.ParseStringify: as above, in JavaScript the inverse holds for
  every integer of magnitude at most 2^53, but not beyond it in general.
- ToyQuery.PagesCoverMatches: coverage relies on the modelled tie order
  (stable, natural order among equal keys). The store promises no
  consistent order among equal sort keys across separate queries, so in
  the program it holds only with an empty sort document or when the
  matches' sort keys are pairwise distinct; otherwise a toy may appear
  on two pages and another on none.
- ToyCriteria.BuildCriteria: `JSON.parse` is modelled only for `true`,
  `false`, `null` and integers. Other JSON texts are errors in the model,
  but JavaScript accepts them:
  - Surrounding whitespace is allowed, so `" true"` parses to `true` and
    selects every in-stock toy.
  - Strings, fractions and arrays become values that select toys by
    equality.
  - An object such as `{"$ne":null}` reaches the store as a query
    operator, here selecting every toy with a stock flag.
- Sort order:
  - Strings compare by code point (the order of their UTF-8 bytes), with
    no collation.
  - Sorting on an array field (`labels`, `msgs`) treats the value as
    missing.
  - Ties keep natural order. The store does not promise this.
- Prices are integers. Fractions and `NaN` are not modelled.
- A missing `msgs` array and an empty one are the same value.
- Error objects are not modelled, only whether a call fails and which
  step failed.
  - Every toy catch block calls `logger.error` first, but
    `toy.service.js` does not import `logger`. So each one, including
    those of `addToyMsg` and `removeToyMsg`, fails with a reference error
    before it can throw the generic error or rethrow the original one.
- `remove` of a toy returns the whole delete result. The model keeps only
  `deletedCount`.
- Logging is left out.
- ToySort.SortToys: the ensures does not state stability (ties keeping
  natural order). The function is stable, but only order and permutation
  are proved.
- ReviewService.Query: row order follows review order, but the ensures
  states only which rows appear, not their order.

=== FILE: entities.dfy ===
/** The user documents the review join reads, and the logged-in user that
    the request context carries. Users are written elsewhere; here they are
    only looked up. */
module Users {
  import opened Results
  import opened ObjectIds

  /** A stored user. `username` stands for the fields the review projection
      leaves out. */
  datatype User = User(id: ObjectId, fullname: Option<string>, username: string, isAdmin: bool)

  /** The `loggedinUser` of a request: its `_id` is text, taken from the
      login token. */
  datatype Caller = Caller(id: string, fullname: string, isAdmin: bool)
}

/** Toy documents, the filter bag of a toy query, and the record a save
    request carries. */
module Toys {
  import opened Results
  import opened ObjectIds
  import opened Users
  import opened JsValues

  /** A message on a toy (`by` in the document); `id` comes from the
      five-character id generator. */
  datatype Msg = Msg(id: string, txt: Option<string>, author: Caller, createdAt: int)

  /** A message as the request builds it, before an id is assigned. */
  datatype MsgInput = MsgInput(txt: Option<string>, author: Caller, createdAt: int)

  /** A stored toy. A field that is `null` or missing in the document is
      `None`; a missing `msgs` array is the empty sequence. */
  datatype Toy = Toy(
    id: ObjectId,
    name: Option<string>,
    price: Option<int>,
    inStock: Option<bool>,
    labels: Option<seq<string>>,
    msgs: seq<Msg>,
    createdAt: Option<int>,
    updatedAt: Option<int>)

  /** The record handed to `save`: an update when `id` is truthy. `owner`
      stands for the extra fields a request may carry. */
  datatype ToyInput = ToyInput(
    id: Option<string>,
    name: Option<string>,
    price: Option<int>,
    inStock: Option<bool>,
    labels: Option<seq<string>>,
    owner: Option<Caller>)

  /** `sortBy` of a query: a field name and a loosely typed direction flag. */
  datatype SortBy = SortBy(field: Option<string>, desc: Scalar)

  /** The filter bag of a toy query. `inStock` is the raw parameter text. */
  datatype ToyFilter = ToyFilter(
    name: Option<string>,
    inStock: Option<string>,
    labels: Option<seq<string>>,
    sortBy: Option<SortBy>,
    pageIdx: Option<int>,
    pageSize: Option<int>)

  /** The store's unique index on `_id`. */
  predicate UniqueIds(toys: seq<Toy>) {
    forall i, j :: 0 <= i < j < |toys| ==> toys[i].id != toys[j].id
  }

  predicate HasId(toys: seq<Toy>, id: ObjectId) {
    exists t :: t in toys && t.id == id
  }

  /** The position of the first toy with the given id: the document a
      single-document update or delete with `{ _id: id }` acts on. */
  function FindToy(toys: seq<Toy>, id: ObjectId): (r: Option<nat>)
    ensures r.Some? ==> r.value < |toys| && toys[r.value].id == id
    ensures r.Some? ==> forall j :: 0 <= j < r.value ==> toys[j].id != id
    ensures r.None? <==> !HasId(toys, id)
  {
    if |toys| == 0 then None
    else if toys[0].id == id then Some(0)
    else
      match FindToy(toys[1..], id)
      case None =>
        assert forall t :: t in toys ==> t == toys[0] || t in toys[1..];
        None
      case Some(k) => Some(k + 1)
  }

  /** With unique ids the first match is the only one. */
  lemma FindToyUnique(toys: seq<Toy>, i: nat)
    requires UniqueIds(toys)
    requires i < |toys|
    ensures FindToy(toys, toys[i].id) == Some(i)
  {
  }
}

=== FILE: js_values.dfy ===
/** The two pieces of JavaScript value semantics the services lean on:
    truthiness (`if (x)`, `x ? a : b`, `x || d`) and `JSON.parse` of the
    text a query parameter carries.
 */
module JsValues {
  import opened Results

  /** A loosely typed request value, as it reaches a truthiness test. */
  datatype Scalar = Undefined | Null | Bool(b: bool) | Num(n: int) | Str(s: string)

  predicate Truthy(v: Scalar) {
    match v
    case Undefined => false
    case Null => false
    case Bool(b) => b
    case Num(n) => n != 0
    case Str(s) => s != ""
  }

  /** The falsy values are exactly `undefined`, `null`, `false`, `0` and
      the empty string; everything else, the text "false" included, is
      truthy. */
  lemma FalsyValues(v: Scalar)
    ensures !Truthy(v) <==> v in [Undefined, Null, Bool(false), Num(0), Str("")]
  {
  }

  /** Truthiness of an optional string field: present and not empty. */
  predicate Given(s: Option<string>) {
    s.Some? && s.value != ""
  }

  /** `Given` is truthiness of the field read as a string or `undefined`. */
  lemma GivenIsTruthy(s: Option<string>)
    ensures Given(s) <==> Truthy(if s.Some? then Str(s.value) else Undefined)
  {
  }

  /** The JSON values a filter parameter can denote in this model. Numbers
      are exact integers, not the doubles JavaScript rounds them to. */
  datatype Json = JBool(b: bool) | JNull | JInt(n: int)

  predicate IsDigit(c: char) {
    '0' <= c <= '9'
  }

  predicate AllDigits(s: string) {
    forall i :: 0 <= i < |s| ==> IsDigit(s[i])
  }

  /** A JSON integer numeral: digits without a superfluous leading zero. */
  predicate IsNumeral(s: string) {
    |s| > 0 && AllDigits(s) && (|s| > 1 ==> s[0] != '0')
  }

  function ParseNat(s: string): nat
    requires AllDigits(s)
    decreases |s|
  {
    if |s| == 0 then 0
    else 10 * ParseNat(s[..|s| - 1]) + (s[|s| - 1] as int - '0' as int)
  }

  /** `JSON.parse` restricted to the literals and integer numerals;
      every other text is rejected. */
  function ParseJson(s: string): (r: Result<Json>)
    ensures r.Err? ==> r.error == InvalidJson
    ensures r.Ok? <==> s == "true" || s == "false" || s == "null" || IsNumeral(s)
                       || (|s| > 1 && s[0] == '-' && IsNumeral(s[1..]))
    ensures r == Ok(JNull) <==> s == "null"
  {
    if s == "true" then Ok(JBool(true))
    else if s == "false" then Ok(JBool(false))
    else if s == "null" then Ok(JNull)
    else if |s| > 1 && s[0] == '-' && IsNumeral(s[1..]) then Ok(JInt(0 - ParseNat(s[1..]) as int))
    else if IsNumeral(s) then Ok(JInt(ParseNat(s)))
    else Err(InvalidJson)
  }

  function DigitChar(d: nat): (c: char)
    requires d < 10
    ensures IsDigit(c)
  {
    ('0' as int + d) as char
  }

  /** Decimal text of a natural number. */
  function NatText(n: nat): (s: string)
    ensures |s| > 0 && AllDigits(s)
  {
    if n < 10 then [DigitChar(n)] else NatText(n / 10) + [DigitChar(n % 10)]
  }

  /** `JSON.stringify` of the values above. */
  function Stringify(j: Json): string {
    match j
    case JBool(b) => if b then "true" else "false"
    case JNull => "null"
    case JInt(n) => if n < 0 then "-" + NatText(-n) else NatText(n)
  }

  lemma {:induction false} NatTextRoundTrip(n: nat)
    ensures IsNumeral(NatText(n))
    ensures ParseNat(NatText(n)) == n
    ensures n > 0 ==> NatText(n)[0] != '0'
  {
    if n >= 10 {
      NatTextRoundTrip(n / 10);
      var s := NatText(n);
      assert s[..|s| - 1] == NatText(n / 10);
      assert s[0] == NatText(n / 10)[0];
    }
  }

  /** Parsing what `JSON.stringify` wrote gives the value back. */
  lemma ParseStringify(j: Json)
    ensures ParseJson(Stringify(j)) == Ok(j)
  {
    match j
    case JBool(b) =>
    case JNull =>
    case JInt(n) =>
      if n < 0 {
        NatTextRoundTrip(-n);
        var s := Stringify(j);
        assert s[1..] == NatText(-n);
        assert s != "true" && s != "false" && s != "null" by {
          assert s[0] == '-';
        }
      } else {
        NatTextRoundTrip(n);
        var s := NatText(n);
        assert s != "true" && s != "false" && s != "null" by {
          assert IsDigit(s[0]);
        }
        assert !(|s| > 1 && s[0] == '-');
      }
  }

  /** Only the two boolean literals parse to booleans. */
  lemma ParseBoolean(s: string, b: bool)
    ensures ParseJson(s) == Ok(JBool(b)) <==> s == (if b then "true" else "false")
  {
  }

  /** A numeral whose first digit is not zero denotes a positive number. */
  lemma {:induction false} LeadingDigitPositive(s: string)
    requires |s| > 0 && AllDigits(s) && s[0] != '0'
    ensures ParseNat(s) > 0
    decreases |s|
  {
    if |s| > 1 {
      LeadingDigitPositive(s[..|s| - 1]);
    }
  }

  /** Writing out the value of a numeral gives the numeral back. */
  lemma {:induction false} NatTextOfParse(s: string)
    requires IsNumeral(s)
    ensures NatText(ParseNat(s)) == s
    decreases |s|
  {
    var n := ParseNat(s);
    var last := s[|s| - 1];
    var d := last as int - '0' as int;
    if |s| == 1 {
      assert s[..|s| - 1] == "";
      assert ParseNat(s[..|s| - 1]) == 0;
      assert n == 10 * ParseNat(s[..|s| - 1]) + d;
      assert DigitChar(d) == last;
      assert s == [last];
    } else {
      var pre := s[..|s| - 1];
      assert pre[0] == s[0];
      assert IsNumeral(pre);
      LeadingDigitPositive(pre);
      NatTextOfParse(pre);
      assert n == 10 * ParseNat(pre) + d;
      assert n / 10 == ParseNat(pre) && n % 10 == d;
      assert DigitChar(d) == last;
      assert s == pre + [last];
    }
  }

  /** The other direction of the round trip: every accepted text is what
      `JSON.stringify` writes for its value, except `-0`, which is written
      `0`. */
  lemma ParseThenStringify(s: string)
    requires ParseJson(s).Ok?
    requires s != "-0"
    ensures Stringify(ParseJson(s).value) == s
  {
    if s != "true" && s != "false" && s != "null" {
      if |s| > 1 && s[0] == '-' && IsNumeral(s[1..]) {
        var digits := s[1..];
        assert digits != "0" by {
          assert s == "-" + digits;
        }
        assert digits[0] != '0';
        LeadingDigitPositive(digits);
        NatTextOfParse(digits);
        assert s == "-" + digits;
      } else {
        NatTextOfParse(s);
      }
    }
  }

  /** `-0` is the one accepted text that does not come back: it parses to
      zero, which is written `0`. */
  lemma NegativeZero()
    ensures ParseJson("-0") == Ok(JInt(0))
    ensures Stringify(JInt(0)) == "0"
  {
    assert "-0"[1..] == "0";
  }
}

=== FILE: object_id.dfy ===
/** Document identifiers of the store.

    An ObjectId is 12 bytes, written as 24 hexadecimal digits. The services
    turn caller-supplied text into an id with `ObjectId.createFromHexString`,
    which accepts digits of either case and throws on anything else. The
    first four bytes hold the creation time in whole seconds, which
    `getTimestamp` reads back.
 */
module ObjectIds {
  import opened Results

  predicate IsHexDigit(c: char) {
    '0' <= c <= '9' || 'a' <= c <= 'f' || 'A' <= c <= 'F'
  }

  predicate IsLowerHexDigit(c: char) {
    '0' <= c <= '9' || 'a' <= c <= 'f'
  }

  predicate AllHex(s: string) {
    forall i :: 0 <= i < |s| ==> IsHexDigit(s[i])
  }

  /** The canonical text of an id: 24 lower-case hexadecimal digits. */
  predicate IsCanonical(s: string) {
    |s| == 24 && forall i :: 0 <= i < |s| ==> IsLowerHexDigit(s[i])
  }

  /** An id is identified with its canonical text, so two ids are the same
      document key exactly when they are equal as strings. */
  type ObjectId = s: string | IsCanonical(s) witness "000000000000000000000000"

  function DigitValue(c: char): (v: nat)
    requires IsHexDigit(c)
    ensures v < 16
  {
    if '0' <= c <= '9' then c as int - '0' as int
    else if 'a' <= c <= 'f' then c as int - 'a' as int + 10
    else c as int - 'A' as int + 10
  }

  function LowerDigit(c: char): (d: char)
    requires IsHexDigit(c)
    ensures IsLowerHexDigit(d)
    ensures DigitValue(d) == DigitValue(c)
  {
    if 'A' <= c <= 'F' then (c as int - 'A' as int + 'a' as int) as char else c
  }

  /** `ObjectId.createFromHexString`: exactly 24 hexadecimal digits of
      either case denote an id; the id holds the same digit values. */
  function Parse(s: string): (r: Result<ObjectId>)
    ensures r.Ok? <==> |s| == 24 && AllHex(s)
    ensures r.Err? ==> r.error == InvalidObjectId
    ensures r.Ok? ==> forall i :: 0 <= i < 24 ==> DigitValue(r.value[i]) == DigitValue(s[i])
  {
    if |s| == 24 && AllHex(s) then
      Ok(seq(24, i requires 0 <= i < 24 => LowerDigit(s[i])))
    else
      Err(InvalidObjectId)
  }

  /** The text of an id (`toHexString`) parses back to the same id. */
  lemma ParseOfCanonical(o: ObjectId)
    ensures Parse(o) == Ok(o)
  {
    var p := seq(24, i requires 0 <= i < 24 => LowerDigit(o[i]));
    forall i | 0 <= i < 24
      ensures p[i] == o[i]
    {
      assert IsLowerHexDigit(o[i]);
    }
    assert p == o;
  }

  function Pow16(n: nat): (p: nat)
    ensures p >= 1
  {
    if n == 0 then 1 else 16 * Pow16(n - 1)
  }

  /** The big-endian number written by a run of hexadecimal digits. */
  function HexNumber(s: string): (v: nat)
    requires AllHex(s)
    ensures v < Pow16(|s|)
    decreases |s|
  {
    if |s| == 0 then 0
    else
      var high := HexNumber(s[..|s| - 1]);
      var low := DigitValue(s[|s| - 1]);
      assert high * 16 + low < Pow16(|s|) by {
        assert high + 1 <= Pow16(|s| - 1);
        assert (high + 1) * 16 <= Pow16(|s| - 1) * 16;
      }
      high * 16 + low
  }

  /** `ObjectId.getTimestamp()` in milliseconds: the leading four bytes count
      whole seconds, so the time is a multiple of 1000 below 2^32 seconds. */
  function Timestamp(o: ObjectId): (ms: nat)
    ensures ms % 1000 == 0
    ensures ms < 1000 * 0x1_0000_0000
  {
    var prefix := o[..8];
    assert Pow16(|prefix|) == 0x1_0000_0000;
    1000 * HexNumber(prefix)
  }

  predicate AllLowerHex(s: string) {
    forall i :: 0 <= i < |s| ==> IsLowerHexDigit(s[i])
  }

  /** A lower-case digit is determined by its value. */
  lemma LowerDigitUnique(c: char, d: char)
    requires IsLowerHexDigit(c) && IsLowerHexDigit(d)
    ensures DigitValue(c) == DigitValue(d) <==> c == d
  {
  }

  /** A base-16 numeral splits uniquely into its high part and last digit. */
  lemma LastDigitUnique(a: nat, b: nat, c: nat, d: nat)
    requires b < 16 && d < 16
    requires a * 16 + b == c * 16 + d
    ensures a == c && b == d
  {
  }

  /** Equal-length lower-case numerals denote the same number exactly when
      they are the same text. */
  lemma {:induction false} HexNumberInjective(s: string, t: string)
    requires |s| == |t| && AllLowerHex(s) && AllLowerHex(t)
    ensures HexNumber(s) == HexNumber(t) <==> s == t
    decreases |s|
  {
    if |s| > 0 && HexNumber(s) == HexNumber(t) {
      var n := |s|;
      HexNumberInjective(s[..n - 1], t[..n - 1]);
      LastDigitUnique(HexNumber(s[..n - 1]), DigitValue(s[n - 1]),
                      HexNumber(t[..n - 1]), DigitValue(t[n - 1]));
      LowerDigitUnique(s[n - 1], t[n - 1]);
      assert s == s[..n - 1] + [s[n - 1]];
      assert t == t[..n - 1] + [t[n - 1]];
    }
  }

  /** `getTimestamp` depends on the leading eight digits and on nothing
      else: two ids report the same time exactly when their first four
      bytes agree. */
  lemma TimestampIsPrefix(a: ObjectId, b: ObjectId)
    ensures Timestamp(a) == Timestamp(b) <==> a[..8] == b[..8]
  {
    HexNumberInjective(a[..8], b[..8]);
  }

  /** A run of `0` digits is zero. */
  lemma {:induction false} Zeros(n: nat)
    ensures AllHex(seq(n, i => '0')) && HexNumber(seq(n, i => '0')) == 0
  {
    if n > 0 {
      Zeros(n - 1);
      assert seq(n, i => '0')[..n - 1] == seq(n - 1, i => '0');
    }
  }

  /** A run of `f` digits is the largest number of its length. */
  lemma {:induction false} Fs(n: nat)
    ensures AllHex(seq(n, i => 'f')) && HexNumber(seq(n, i => 'f')) == Pow16(n) - 1
  {
    if n > 0 {
      Fs(n - 1);
      assert seq(n, i => 'f')[..n - 1] == seq(n - 1, i => 'f');
    }
  }

  /** The leading bytes count seconds: `00000001` is one second after the
      epoch. */
  lemma OneSecondId()
    ensures Timestamp("000000010000000000000000") == 1000
  {
    var one: ObjectId := "000000010000000000000000";
    Zeros(7);
    assert one[..8] == seq(7, i => '0') + "1";
    assert one[..8][..7] == seq(7, i => '0');
  }

  /** `ffffffff` is the last second the four leading bytes can hold. */
  lemma LastSecondId()
    ensures Timestamp("ffffffff0000000000000000") == 1000 * (0x1_0000_0000 - 1)
  {
    var top: ObjectId := "ffffffff0000000000000000";
    Fs(8);
    assert top[..8] == seq(8, i => 'f');
    assert Pow16(8) == 0x1_0000_0000;
  }
}

=== FILE: results.dfy ===
/** Optional values and the failure outcomes of the data-access layer.

    The services throw on failure; here a failure is an `Err` carrying its
    cause, so that each call is a total function. The kinds below name the
    step that failed; they are not the error objects the services throw.
 */
module Results {

  /** A value that may be absent: `None` stands for a JavaScript field that
      is `undefined` or `null`. */
  datatype Option<+T> = None | Some(value: T) {

    /** The value, or `default` when absent (the `x = default` destructuring). */
    function GetOr(default: T): T {
      match this
      case Some(v) => v
      case None => default
    }
  }

  datatype Error =
    | InvalidObjectId   // ObjectId.createFromHexString rejected the text
    | InvalidJson       // JSON.parse rejected the text
    | NotFound          // no document carries the requested _id
    | DuplicateKey      // the store's unique index on _id rejected an insert
    | NegativeSkip      // the store rejects a negative skip
    | NoCaller          // no logged-in user in the request context

  datatype Result<+T> = Ok(value: T) | Err(error: Error)
}

=== FILE: review_service.dfy ===
/** The review service: the filtered three-collection join, owner/admin
    deletion and insertion.

    The join is the aggregation pipeline `$match`, `$lookup` + `$unwind`
    into the reviewing user, `$lookup` + `$unwind` into the reviewed toy,
    `$project`. A lookup collects every document with the referenced id and
    an unwind emits one row per collected document, so a review whose
    reference resolves to nothing yields no row. */
module ReviewService {
  import opened Results
  import opened ObjectIds
  import opened JsValues
  import opened Users
  import opened Toys

  /** A stored review: exactly the fields `add` writes, plus the `_id`. */
  datatype Review = Review(id: ObjectId, byUserId: ObjectId, aboutToyId: ObjectId, txt: Option<string>)

  /** The record handed to `add`: references as hex text. */
  datatype ReviewInput = ReviewInput(byUserId: string, aboutToyId: string, txt: Option<string>)

  datatype ReviewFilter = ReviewFilter(byUserId: Option<string>)

  /** A projected reference: `_id` and `fullname`, if the document has one. */
  datatype RefView = RefView(id: ObjectId, fullname: Option<string>)

  /** One output row of the review query. */
  datatype ReviewView = ReviewView(id: ObjectId, txt: Option<string>, byUser: RefView, aboutToy: RefView)

  predicate UniqueReviewIds(reviews: seq<Review>) {
    forall i, j :: 0 <= i < j < |reviews| ==> reviews[i].id != reviews[j].id
  }

  predicate UniqueUserIds(users: seq<User>) {
    forall i, j :: 0 <= i < j < |users| ==> users[i].id != users[j].id
  }

  // ------------------------------------------------------------------ query

  /** `_buildCriteria` of the review service: a truthy `byUserId` becomes
      equality on that id (malformed text fails); otherwise no condition. */
  function BuildCriteria(f: ReviewFilter): (r: Result<Option<ObjectId>>)
    ensures r.Err? <==> Given(f.byUserId) && Parse(f.byUserId.value).Err?
    ensures r.Ok? ==> (r.value.None? <==> !Given(f.byUserId))
    ensures r.Ok? && r.value.Some? ==> Parse(f.byUserId.value) == Ok(r.value.value)
  {
    if Given(f.byUserId) then
      match Parse(f.byUserId.value)
      case Err(e) => Err(e)
      case Ok(id) => Ok(Some(id))
    else
      Ok(None)
  }

  predicate Selects(c: Option<ObjectId>, r: Review) {
    c.None? || r.byUserId == c.value
  }

  /** `$match`: the selected reviews in collection order. */
  function MatchReviews(reviews: seq<Review>, c: Option<ObjectId>): (r: seq<Review>)
    ensures forall x :: x in r <==> x in reviews && Selects(c, x)
    ensures |r| <= |reviews|
  {
    if |reviews| == 0 then []
    else
      var rest := MatchReviews(reviews[1..], c);
      assert reviews == [reviews[0]] + reviews[1..];
      if Selects(c, reviews[0]) then [reviews[0]] + rest else rest
  }

  /** With unique ids, no later user shares the first one's id. */
  lemma UsersWithIdTail(users: seq<User>)
    requires |users| > 0 && UniqueUserIds(users)
    ensures forall x :: x in users[1..] ==> x.id != users[0].id
  {
    forall x | x in users[1..]
      ensures x.id != users[0].id
    {
      var k :| 0 <= k < |users[1..]| && users[1..][k] == x;
      assert users[k + 1] == x;
    }
  }

  /** `$lookup` into `user`: every user with that `_id`. */
  function UsersWithId(users: seq<User>, id: ObjectId): (r: seq<User>)
    ensures forall u :: u in r <==> u in users && u.id == id
    ensures (forall u :: u in users ==> u.id != id) ==> r == []
    ensures UniqueUserIds(users) ==> |r| <= 1
  {
    if |users| == 0 then []
    else
      var rest := UsersWithId(users[1..], id);
      assert users == [users[0]] + users[1..];
      if users[0].id == id then
        assert UniqueUserIds(users) ==> rest == [] by {
          if UniqueUserIds(users) {
            UsersWithIdTail(users);
          }
        }
        [users[0]] + rest
      else rest
  }

  /** With unique ids, no later toy shares the first one's id. */
  lemma ToysWithIdTail(toys: seq<Toy>)
    requires |toys| > 0 && UniqueIds(toys)
    ensures forall x :: x in toys[1..] ==> x.id != toys[0].id
  {
    forall x | x in toys[1..]
      ensures x.id != toys[0].id
    {
      var k :| 0 <= k < |toys[1..]| && toys[1..][k] == x;
      assert toys[k + 1] == x;
    }
  }

  /** `$lookup` into `toy`: every toy with that `_id`. */
  function ToysWithId(toys: seq<Toy>, id: ObjectId): (r: seq<Toy>)
    ensures forall t :: t in r <==> t in toys && t.id == id
    ensures (forall t :: t in toys ==> t.id != id) ==> r == []
    ensures UniqueIds(toys) ==> |r| <= 1
  {
    if |toys| == 0 then []
    else
      var rest := ToysWithId(toys[1..], id);
      assert toys == [toys[0]] + toys[1..];
      if toys[0].id == id then
        assert UniqueIds(toys) ==> rest == [] by {
          if UniqueIds(toys) {
            ToysWithIdTail(toys);
          }
        }
        [toys[0]] + rest
      else rest
  }

  /** `$project` of one joined document. Toys are stored with `name`, not
      `fullname`, so the toy side keeps only its `_id`. */
  function Row(r: Review, u: User, t: Toy): (v: ReviewView)
    ensures v.id == r.id && v.txt == r.txt
    ensures v.byUser.id == u.id && v.byUser.fullname == u.fullname
    ensures v.aboutToy.id == t.id && v.aboutToy.fullname.None?
  {
    ReviewView(r.id, r.txt, RefView(u.id, u.fullname), RefView(t.id, None))
  }

  /** The second unwind for one user: one row per toy. */
  function RowsWithUser(r: Review, u: User, ts: seq<Toy>): (rows: seq<ReviewView>)
    ensures |rows| == |ts|
    ensures forall v :: v in rows <==> exists t :: t in ts && v == Row(r, u, t)
  {
    if |ts| == 0 then []
    else
      var rest := RowsWithUser(r, u, ts[1..]);
      assert ts == [ts[0]] + ts[1..];
      assert forall t :: t in ts <==> t == ts[0] || t in ts[1..];
      [Row(r, u, ts[0])] + rest
  }

  /** Both unwinds for one review: one row per (user, toy) pair. */
  function RowsFor(r: Review, us: seq<User>, ts: seq<Toy>): (rows: seq<ReviewView>)
    ensures |rows| == |us| * |ts|
    ensures forall v :: v in rows <==> exists u, t :: u in us && t in ts && v == Row(r, u, t)
  {
    if |us| == 0 then []
    else
      var first := RowsWithUser(r, us[0], ts);
      var rest := RowsFor(r, us[1..], ts);
      assert us == [us[0]] + us[1..];
      assert forall u :: u in us <==> u == us[0] || u in us[1..];
      first + rest
  }

  function Resolve(r: Review, users: seq<User>, toys: seq<Toy>): seq<ReviewView> {
    RowsFor(r, UsersWithId(users, r.byUserId), ToysWithId(toys, r.aboutToyId))
  }

  /** A review resolves when both its user and its toy exist. */
  predicate Resolves(r: Review, users: seq<User>, toys: seq<Toy>) {
    (exists u :: u in users && u.id == r.byUserId) && (exists t :: t in toys && t.id == r.aboutToyId)
  }

  lemma ResolveRows(r: Review, users: seq<User>, toys: seq<Toy>)
    ensures forall v :: v in Resolve(r, users, toys) <==>
              exists u, t :: u in users && t in toys && u.id == r.byUserId && t.id == r.aboutToyId
                             && v == Row(r, u, t)
    ensures Resolve(r, users, toys) == [] <==> !Resolves(r, users, toys)
    ensures UniqueUserIds(users) && UniqueIds(toys) ==> |Resolve(r, users, toys)| <= 1
  {
    var us := UsersWithId(users, r.byUserId);
    var ts := ToysWithId(toys, r.aboutToyId);
    if Resolves(r, users, toys) {
      var u :| u in users && u.id == r.byUserId;
      var t :| t in toys && t.id == r.aboutToyId;
      assert Row(r, u, t) in Resolve(r, users, toys);
    }
    if UniqueUserIds(users) && UniqueIds(toys) {
      ResolveAtMostOne(r, users, toys);
    }
  }

  /** With unique user and toy ids a review resolves to at most one row. */
  lemma ResolveAtMostOne(r: Review, users: seq<User>, toys: seq<Toy>)
    requires UniqueUserIds(users) && UniqueIds(toys)
    ensures |Resolve(r, users, toys)| <= 1
  {
    var us := UsersWithId(users, r.byUserId);
    var ts := ToysWithId(toys, r.aboutToyId);
    assert |us| <= 1 && |ts| <= 1;
    if |us| == 1 && |ts| == 1 { }
  }

  /** The rows of all reviews, review by review. */
  function Join(reviews: seq<Review>, users: seq<User>, toys: seq<Toy>): (rows: seq<ReviewView>)
    ensures forall v :: v in rows <==> exists r :: r in reviews && v in Resolve(r, users, toys)
    ensures UniqueUserIds(users) && UniqueIds(toys) ==> |rows| <= |reviews|
  {
    if |reviews| == 0 then []
    else
      var rest := Join(reviews[1..], users, toys);
      assert UniqueUserIds(users) && UniqueIds(toys) ==> |Resolve(reviews[0], users, toys)| <= 1 by {
        if UniqueUserIds(users) && UniqueIds(toys) {
          ResolveAtMostOne(reviews[0], users, toys);
        }
      }
      FlatMapStep(reviews, r => Resolve(r, users, toys), rest);
      Resolve(reviews[0], users, toys) + rest
  }

  /** The outputs of the first element followed by the outputs of the
      others are the outputs of all elements. */
  lemma FlatMapStep<A, B>(xs: seq<A>, f: A -> seq<B>, rest: seq<B>)
    requires |xs| > 0
    requires forall v :: v in rest <==> exists x :: x in xs[1..] && v in f(x)
    ensures forall v :: v in f(xs[0]) + rest <==> exists x :: x in xs && v in f(x)
  {
    forall v
      ensures v in f(xs[0]) + rest <==> exists x :: x in xs && v in f(x)
    {
      if v in f(xs[0]) {
        assert xs[0] in xs;
      } else if v in rest {
        var x :| x in xs[1..] && v in f(x);
        assert x in xs;
      }
      if exists x :: x in xs && v in f(x) {
        var x :| x in xs && v in f(x);
        if x != xs[0] {
          var k :| 0 <= k < |xs| && xs[k] == x;
          assert xs[1..][k - 1] == x;
        }
      }
    }
  }

  /** `query` of the review service. Every row comes from a selected review
      together with its user and its toy. */
  function Query(reviews: seq<Review>, users: seq<User>, toys: seq<Toy>, f: ReviewFilter)
    : (r: Result<seq<ReviewView>>)
    ensures r.Err? <==> BuildCriteria(f).Err?
    ensures r.Ok? ==> forall v :: v in r.value ==>
              exists rv, u, t :: rv in reviews && Selects(BuildCriteria(f).value, rv)
                                 && u in users && u.id == rv.byUserId
                                 && t in toys && t.id == rv.aboutToyId
                                 && v == Row(rv, u, t)
  {
    match BuildCriteria(f)
    case Err(e) => Err(e)
    case Ok(c) =>
      var rows := Join(MatchReviews(reviews, c), users, toys);
      assert forall v :: v in rows ==>
               exists rv, u, t :: rv in reviews && Selects(c, rv)
                                  && u in users && u.id == rv.byUserId
                                  && t in toys && t.id == rv.aboutToyId
                                  && v == Row(rv, u, t) by {
        forall v | v in rows
          ensures exists rv, u, t :: rv in reviews && Selects(c, rv)
                                     && u in users && u.id == rv.byUserId
                                     && t in toys && t.id == rv.aboutToyId
                                     && v == Row(rv, u, t)
        {
          var rv :| rv in MatchReviews(reviews, c) && v in Resolve(rv, users, toys);
          ResolveRows(rv, users, toys);
        }
      }
      Ok(rows)
  }

  /** A selected review whose user and toy both exist appears in the output. */
  lemma ResolvedReviewAppears(reviews: seq<Review>, users: seq<User>, toys: seq<Toy>, f: ReviewFilter,
                              rv: Review, u: User, t: Toy)
    requires BuildCriteria(f).Ok?
    requires rv in reviews && Selects(BuildCriteria(f).value, rv)
    requires u in users && u.id == rv.byUserId
    requires t in toys && t.id == rv.aboutToyId
    ensures Row(rv, u, t) in Query(reviews, users, toys, f).value
  {
    ResolveRows(rv, users, toys);
  }

  /** Inner-join omission: a review whose user or toy is missing yields no
      row, and the query still succeeds. */
  lemma DanglingReviewOmitted(reviews: seq<Review>, users: seq<User>, toys: seq<Toy>, f: ReviewFilter, rv: Review)
    requires UniqueReviewIds(reviews)
    requires BuildCriteria(f).Ok?
    requires rv in reviews && !Resolves(rv, users, toys)
    ensures Query(reviews, users, toys, f).Ok?
    ensures forall v :: v in Query(reviews, users, toys, f).value ==> v.id != rv.id
  {
    forall v | v in Query(reviews, users, toys, f).value
      ensures v.id != rv.id
    {
      var x, u, t :| x in reviews && u in users && u.id == x.byUserId
                     && t in toys && t.id == x.aboutToyId && v == Row(x, u, t);
      assert Resolves(x, users, toys);
      DistinctReviewsDistinctIds(reviews, x, rv);
    }
  }

  lemma DistinctReviewsDistinctIds(reviews: seq<Review>, x: Review, y: Review)
    requires UniqueReviewIds(reviews)
    requires x in reviews && y in reviews && x != y
    ensures x.id != y.id
  {
    var a :| 0 <= a < |reviews| && reviews[a] == x;
    var b :| 0 <= b < |reviews| && reviews[b] == y;
    assert a != b;
  }

  /** With unique user and toy ids each selected review yields at most one
      row, so there are no more rows than selected reviews. */
  lemma AtMostOneRowPerReview(reviews: seq<Review>, users: seq<User>, toys: seq<Toy>, f: ReviewFilter)
    requires UniqueUserIds(users) && UniqueIds(toys)
    requires BuildCriteria(f).Ok?
    ensures |Query(reviews, users, toys, f).value| <= |MatchReviews(reviews, BuildCriteria(f).value)|
  {
  }

  /** The projection never carries a toy name: toys have no `fullname`. */
  lemma ToySideCarriesOnlyId(reviews: seq<Review>, users: seq<User>, toys: seq<Toy>, f: ReviewFilter)
    requires BuildCriteria(f).Ok?
    ensures forall v :: v in Query(reviews, users, toys, f).value ==> v.aboutToy.fullname.None?
  {
  }

  /** Filtering by a user keeps only that user's reviews. */
  lemma FilterByUser(reviews: seq<Review>, users: seq<User>, toys: seq<Toy>, userId: string)
    requires userId != "" && Parse(userId).Ok?
    ensures var r := Query(reviews, users, toys, ReviewFilter(Some(userId)));
            r.Ok? && forall v :: v in r.value ==> v.byUser.id == Parse(userId).value
  {
  }

  // ----------------------------------------------------------------- remove

  /** The delete criteria: the review id, and for a non-admin caller also
      the caller's id as `byUserId`. */
  datatype DeleteCriteria = DeleteCriteria(id: ObjectId, owner: Option<ObjectId>)

  predicate Hits(c: DeleteCriteria, r: Review) {
    r.id == c.id && (c.owner.None? || r.byUserId == c.owner.value)
  }

  /** The ownership rule, stated on the caller: an admin may delete any
      review, anyone else only a review whose author id is their own. */
  predicate MayDelete(caller: Caller, r: Review) {
    caller.isAdmin || Parse(caller.id) == Ok(r.byUserId)
  }

  /** `remove`'s criteria, in the source's order: the review id is parsed
      first, then the caller is read (a missing one fails there), then for
      a non-admin the caller's id is parsed. */
  function DeleteCriteriaFor(reviewId: string, caller: Option<Caller>): (r: Result<DeleteCriteria>)
    ensures Parse(reviewId).Err? ==> r == Err(InvalidObjectId)
    ensures Parse(reviewId).Ok? && caller.None? ==> r == Err(NoCaller)
    ensures caller.Some? ==>
              (r.Err? <==> Parse(reviewId).Err? || (!caller.value.isAdmin && Parse(caller.value.id).Err?))
    ensures r.Ok? ==> r.value.id == Parse(reviewId).value
    ensures r.Ok? ==> forall rv :: Hits(r.value, rv) <==> rv.id == r.value.id && MayDelete(caller.value, rv)
  {
    match Parse(reviewId)
    case Err(e) => Err(e)
    case Ok(id) =>
      match caller
      case None => Err(NoCaller)
      case Some(who) =>
        if who.isAdmin then Ok(DeleteCriteria(id, None))
        else
          match Parse(who.id)
          case Err(e) => Err(e)
          case Ok(owner) => Ok(DeleteCriteria(id, Some(owner)))
  }

  function FindHit(reviews: seq<Review>, c: DeleteCriteria): (r: Option<nat>)
    ensures r.Some? ==> r.value < |reviews| && Hits(c, reviews[r.value])
    ensures r.Some? ==> forall j :: 0 <= j < r.value ==> !Hits(c, reviews[j])
    ensures r.None? <==> forall x :: x in reviews ==> !Hits(c, x)
  {
    if |reviews| == 0 then None
    else if Hits(c, reviews[0]) then Some(0)
    else
      match FindHit(reviews[1..], c)
      case None =>
        assert forall x :: x in reviews ==> x == reviews[0] || x in reviews[1..];
        None
      case Some(k) => Some(k + 1)
  }

  /** `deleteOne(criteria)`: the first review the criteria hit goes. */
  function DeleteOne(reviews: seq<Review>, c: DeleteCriteria): (r: (seq<Review>, nat))
    ensures r.1 <= 1
    ensures r.1 == 1 <==> exists x :: x in reviews && Hits(c, x)
    ensures |r.0| + r.1 == |reviews|
    ensures r.1 == 0 ==> r.0 == reviews
    ensures r.1 == 1 ==> exists i :: 0 <= i < |reviews| && Hits(c, reviews[i])
                                     && r.0 == reviews[..i] + reviews[i + 1..]
    ensures forall x :: x in reviews && !Hits(c, x) ==> x in r.0
  {
    match FindHit(reviews, c)
    case None => (reviews, 0)
    case Some(i) =>
      assert reviews[i] in reviews;
      forall x | x in reviews && !Hits(c, x)
        ensures x in reviews[..i] + reviews[i + 1..]
      {
        KeptOutside(reviews, i, x);
      }
      (reviews[..i] + reviews[i + 1..], 1)
  }

  /** Cutting out position `i` keeps every other value. */
  lemma KeptOutside<T>(s: seq<T>, i: nat, x: T)
    requires i < |s| && x in s && x != s[i]
    ensures x in s[..i] + s[i + 1..]
  {
    var k :| 0 <= k < |s| && s[k] == x;
    if k < i {
      assert (s[..i] + s[i + 1..])[k] == x;
    } else {
      assert (s[..i] + s[i + 1..])[k - 1] == x;
    }
  }

  /** `remove` of the review service: the remaining reviews and the
      `deletedCount`. An unauthorised request deletes nothing and still
      succeeds. */
  function Remove(reviews: seq<Review>, reviewId: string, caller: Option<Caller>): (r: Result<(seq<Review>, nat)>)
    ensures Parse(reviewId).Err? ==> r == Err(InvalidObjectId)
    ensures Parse(reviewId).Ok? && caller.None? ==> r == Err(NoCaller)
    ensures caller.Some? ==>
              (r.Err? <==> Parse(reviewId).Err? || (!caller.value.isAdmin && Parse(caller.value.id).Err?))
    ensures r.Ok? ==> r.value.1 <= 1 && |r.value.0| + r.value.1 == |reviews|
    ensures r.Ok? ==> (r.value.1 == 1 <==>
              exists x :: x in reviews && x.id == Parse(reviewId).value && MayDelete(caller.value, x))
    ensures r.Ok? && r.value.1 == 0 ==> r.value.0 == reviews
    ensures r.Ok? ==> forall x :: x in reviews && x.id != Parse(reviewId).value ==> x in r.value.0
  {
    match DeleteCriteriaFor(reviewId, caller)
    case Err(e) => Err(e)
    case Ok(c) =>
      var (rest, n) := DeleteOne(reviews, c);
      assert forall x :: x in reviews && x.id != c.id ==> !Hits(c, x);
      Ok((rest, n))
  }

  lemma RemovedIsGone(reviews: seq<Review>, rv: Review, i: nat)
    requires UniqueReviewIds(reviews)
    requires i < |reviews| && reviews[i] == rv
    ensures rv !in reviews[..i] + reviews[i + 1..]
  {
    var rest := reviews[..i] + reviews[i + 1..];
    forall k | 0 <= k < |rest|
      ensures rest[k].id != rv.id
    {
      if k < i {
        assert rest[k] == reviews[k];
      } else {
        assert rest[k] == reviews[k + 1];
      }
    }
  }

  /** The author of a review, or an admin, deletes it: one document goes
      and the review is gone. */
  lemma OwnerOrAdminDeletes(reviews: seq<Review>, rv: Review, caller: Caller)
    requires UniqueReviewIds(reviews)
    requires rv in reviews
    requires caller.isAdmin || Parse(caller.id) == Ok(rv.byUserId)
    ensures var r := Remove(reviews, rv.id, Some(caller));
            r.Ok? && r.value.1 == 1 && rv !in r.value.0
  {
    ParseOfCanonical(rv.id);
    var c := DeleteCriteriaFor(rv.id, Some(caller)).value;
    var (rest, n) := DeleteOne(reviews, c);
    var i :| 0 <= i < |reviews| && Hits(c, reviews[i]) && rest == reviews[..i] + reviews[i + 1..];
    var j :| 0 <= j < |reviews| && reviews[j] == rv;
    assert i == j;
    RemovedIsGone(reviews, rv, i);
  }

  /** A non-admin who did not write the review deletes nothing: the count
      is 0, no error is raised, and the review is still there. */
  lemma StrangerCannotDelete(reviews: seq<Review>, rv: Review, caller: Caller)
    requires UniqueReviewIds(reviews)
    requires rv in reviews
    requires !caller.isAdmin && Parse(caller.id).Ok? && Parse(caller.id).value != rv.byUserId
    ensures Remove(reviews, rv.id, Some(caller)) == Ok((reviews, 0))
  {
    ParseOfCanonical(rv.id);
    forall x | x in reviews && x.id == rv.id
      ensures x == rv
    {
      var a :| 0 <= a < |reviews| && reviews[a] == x;
      var b :| 0 <= b < |reviews| && reviews[b] == rv;
    }
  }

  /** The review id is parsed before the caller is read, so a malformed id
      fails as such even when nobody is logged in. */
  lemma MalformedIdBeforeCaller(reviews: seq<Review>)
    ensures Remove(reviews, "zz", None) == Err(InvalidObjectId)
  {
  }

  // -------------------------------------------------------------------- add

  predicate HasReviewId(reviews: seq<Review>, id: ObjectId) {
    exists x :: x in reviews && x.id == id
  }

  /** `add`: both references parsed from hex, the text copied, nothing
      checked against the user or toy collections. The store assigns
      `newId` and the returned record carries it. */
  function Add(reviews: seq<Review>, input: ReviewInput, newId: ObjectId): (r: Result<(seq<Review>, Review)>)
    ensures r.Err? <==> Parse(input.byUserId).Err? || Parse(input.aboutToyId).Err? || HasReviewId(reviews, newId)
    ensures r.Ok? ==> r.value.1 == Review(newId, Parse(input.byUserId).value,
                                          Parse(input.aboutToyId).value, input.txt)
    ensures r.Ok? ==> r.value.0 == reviews + [r.value.1]
  {
    match Parse(input.byUserId)
    case Err(e) => Err(e)
    case Ok(byUserId) =>
      match Parse(input.aboutToyId)
      case Err(e) => Err(e)
      case Ok(aboutToyId) =>
        if HasReviewId(reviews, newId) then Err(DuplicateKey)
        else
          var review := Review(newId, byUserId, aboutToyId, input.txt);
          Ok((reviews + [review], review))
  }

  /** Adding keeps review ids unique. */
  lemma AddPreservesUniqueIds(reviews: seq<Review>, input: ReviewInput, newId: ObjectId)
    requires UniqueReviewIds(reviews)
    requires Add(reviews, input, newId).Ok?
    ensures UniqueReviewIds(Add(reviews, input, newId).value.0)
  {
    var after := Add(reviews, input, newId).value.0;
    forall i, j | 0 <= i < j < |after|
      ensures after[i].id != after[j].id
    {
      if j == |reviews| {
        assert reviews[i] in reviews;
      }
    }
  }

  /** A review about a toy that does not exist is accepted by `add` and
      then never shows up in any query. */
  lemma AddedDanglingReviewIsHidden(reviews: seq<Review>, users: seq<User>, toys: seq<Toy>,
                                    input: ReviewInput, newId: ObjectId, f: ReviewFilter)
    requires UniqueReviewIds(reviews)
    requires Add(reviews, input, newId).Ok?
    requires !HasId(toys, Parse(input.aboutToyId).value)
    requires BuildCriteria(f).Ok?
    ensures var after := Add(reviews, input, newId).value.0;
            forall v :: v in Query(after, users, toys, f).value ==> v.id != newId
  {
    AddPreservesUniqueIds(reviews, input, newId);
    var added := Add(reviews, input, newId).value;
    assert added.1 in added.0;
    DanglingReviewOmitted(added.0, users, toys, f, added.1);
  }

  /** The author can take back what they added: adding, then removing the
      new id as the author, restores the collection. */
  lemma AddThenAuthorRemoves(reviews: seq<Review>, input: ReviewInput, newId: ObjectId, caller: Caller)
    requires Add(reviews, input, newId).Ok?
    requires caller.id == input.byUserId
    ensures Remove(Add(reviews, input, newId).value.0, newId, Some(caller)) == Ok((reviews, 1))
  {
    var added := Add(reviews, input, newId).value;
    var after := added.0;
    ParseOfCanonical(newId);
    var c := if caller.isAdmin then DeleteCriteria(newId, None)
             else DeleteCriteria(newId, Some(added.1.byUserId));
    assert DeleteCriteriaFor(newId, Some(caller)) == Ok(c);
    assert Hits(c, added.1);
    FindHitAppend(reviews, added.1, c);
    assert after[..|reviews|] + after[|reviews| + 1..] == reviews;
    assert DeleteOne(after, c) == (reviews, 1);
  }

  lemma {:induction false} FindHitAppend(reviews: seq<Review>, x: Review, c: DeleteCriteria)
    requires !HasReviewId(reviews, c.id)
    requires Hits(c, x)
    ensures FindHit(reviews + [x], c) == Some(|reviews|)
  {
    if |reviews| > 0 {
      assert (reviews + [x])[1..] == reviews[1..] + [x];
      assert !HasReviewId(reviews[1..], c.id) by {
        assert forall y :: y in reviews[1..] ==> y in reviews;
      }
      FindHitAppend(reviews[1..], x, c);
      assert reviews[0] in reviews;
    }
  }
}

=== FILE: text.dfy ===
/** Case-insensitive text matching, standing for the store's
    `{ $regex: pattern, $options: 'i' }` condition on a string field.

    The pattern is taken literally (a regular expression without
    metacharacters matches exactly where it occurs as a substring), and
    case folding covers the ASCII letters.
 */
module Text {

  function LowerChar(c: char): char {
    if 'A' <= c <= 'Z' then (c as int - 'A' as int + 'a' as int) as char else c
  }

  function Lower(s: string): (r: string)
    ensures |r| == |s|
  {
    seq(|s|, i requires 0 <= i < |s| => LowerChar(s[i]))
  }

  predicate IsPrefix(p: string, s: string) {
    |p| <= |s| && s[..|p|] == p
  }

  /** Substring search the way a scanner does it: try the pattern at the
      first position, then search the rest. */
  predicate Occurs(needle: string, hay: string)
    decreases |hay|
  {
    IsPrefix(needle, hay) || (|hay| > 0 && Occurs(needle, hay[1..]))
  }

  /** The position-based meaning of a substring occurrence. */
  predicate OccursAt(needle: string, hay: string, i: int) {
    0 <= i && i + |needle| <= |hay| && hay[i..i + |needle|] == needle
  }

  /** The scanning search finds the pattern exactly when some position of
      the text starts a copy of it. */
  lemma {:induction false} OccursIff(needle: string, hay: string)
    ensures Occurs(needle, hay) <==> exists i :: OccursAt(needle, hay, i)
    decreases |hay|
  {
    if Occurs(needle, hay) {
      if IsPrefix(needle, hay) {
        assert OccursAt(needle, hay, 0);
      } else {
        OccursIff(needle, hay[1..]);
        var j :| OccursAt(needle, hay[1..], j);
        assert hay[1..][j..j + |needle|] == hay[j + 1..j + 1 + |needle|];
        assert OccursAt(needle, hay, j + 1);
      }
    }
    if exists i :: OccursAt(needle, hay, i) {
      var i :| OccursAt(needle, hay, i);
      if i == 0 {
        assert IsPrefix(needle, hay);
      } else {
        assert hay[1..][i - 1..i - 1 + |needle|] == hay[i..i + |needle|];
        assert OccursAt(needle, hay[1..], i - 1);
        OccursIff(needle, hay[1..]);
      }
    }
  }

  /** `name` matches the pattern `pattern` under the `i` option. */
  predicate MatchesIgnoreCase(name: string, pattern: string) {
    Occurs(Lower(pattern), Lower(name))
  }

  /** Folding case twice is folding it once. */
  lemma LowerIdempotent(s: string)
    ensures Lower(Lower(s)) == Lower(s)
  {
  }

  /** The match does not depend on the case of either side. */
  lemma MatchIgnoresCase(name: string, pattern: string)
    ensures MatchesIgnoreCase(name, pattern) == MatchesIgnoreCase(Lower(name), Lower(pattern))
  {
    LowerIdempotent(name);
    LowerIdempotent(pattern);
  }

  /** Every name matches itself, whatever the case. */
  lemma {:induction false} NameMatchesItself(name: string)
    ensures MatchesIgnoreCase(name, name)
  {
    var l := Lower(name);
    assert l[..|l|] == l;
    assert IsPrefix(l, l);
  }

  /** A match means a case-folded copy of the pattern sits somewhere in the
      case-folded name. */
  lemma MatchMeansPosition(name: string, pattern: string)
    ensures MatchesIgnoreCase(name, pattern)
        <==> exists i :: OccursAt(Lower(pattern), Lower(name), i)
  {
    OccursIff(Lower(pattern), Lower(name));
  }
}

=== FILE: toy_criteria.dfy ===
/** The toy query's criteria builder and the way the store evaluates the
    resulting criteria document against a stored toy. */
module ToyCriteria {
  import opened Results
  import opened JsValues
  import opened Text
  import opened Toys

  /** The criteria document: each present entry is one conjunct.
      `name` is a case-insensitive pattern, `inStock` an equality,
      `labels` an `$in` list. */
  datatype Criteria = Criteria(name: Option<string>, inStock: Option<Json>, labels: Option<seq<string>>)

  const MatchAll := Criteria(None, None, None)

  /** `labels` is truthy and non-empty. */
  predicate LabelsGiven(f: ToyFilter) {
    f.labels.Some? && |f.labels.value| > 0
  }

  /** The `inStock` parameter is present but outside the modelled JSON
      subset. */
  predicate BadInStock(f: ToyFilter) {
    f.inStock.Some? && ParseJson(f.inStock.value).Err?
  }

  /** `_buildCriteria` of the toy service: `name` when truthy, `inStock`
      parsed as JSON when defined (a parse failure throws), `labels` when
      a non-empty list. */
  function BuildCriteria(f: ToyFilter): (r: Result<Criteria>)
    ensures r.Err? <==> BadInStock(f)
    ensures r.Err? ==> r.error == InvalidJson
    ensures r.Ok? ==> (r.value.name.Some? <==> Given(f.name))
    ensures r.Ok? ==> (r.value.inStock.Some? <==> f.inStock.Some?)
    ensures r.Ok? ==> (r.value.labels.Some? <==> LabelsGiven(f))
    ensures r == Ok(MatchAll) <==> !Given(f.name) && f.inStock.None? && !LabelsGiven(f)
  {
    var name := if Given(f.name) then f.name else None;
    var labels := if LabelsGiven(f) then f.labels else None;
    if f.inStock.None? then
      Ok(Criteria(name, None, labels))
    else
      match ParseJson(f.inStock.value)
      case Err(e) => Err(e)
      case Ok(j) => Ok(Criteria(name, Some(j), labels))
  }

  /** `{ labels: { $in: wanted } }` on a stored array: scan it for an
      element of the list. */
  predicate AnyIn(labels: seq<string>, wanted: seq<string>)
    decreases |labels|
  {
    |labels| > 0 && (labels[0] in wanted || AnyIn(labels[1..], wanted))
  }

  /** Equality of a stored `inStock` with a JSON value: `null` also matches
      a missing field, and no number equals a boolean. */
  predicate EqualsJson(stored: Option<bool>, j: Json) {
    match j
    case JBool(b) => stored == Some(b)
    case JNull => stored.None?
    case JInt(_) => false
  }

  /** The store's evaluation of a criteria document: every entry holds. */
  predicate Matches(c: Criteria, t: Toy) {
    && (c.name.Some? ==> t.name.Some? && MatchesIgnoreCase(t.name.value, c.name.value))
    && (c.inStock.Some? ==> EqualsJson(t.inStock, c.inStock.value))
    && (c.labels.Some? ==> t.labels.Some? && AnyIn(t.labels.value, c.labels.value))
  }

  function BoolText(b: bool): string {
    if b then "true" else "false"
  }

  /** What a filter bag asks of a toy, stated directly on the bag:
      a truthy name occurs in the toy's name ignoring case; an `inStock`
      text is the toy's boolean written out (or `null` for a toy without
      one); a non-empty label list shares a label with the toy. */
  ghost predicate Accepts(f: ToyFilter, t: Toy) {
    && (Given(f.name) ==>
          t.name.Some? && exists i :: OccursAt(Lower(f.name.value), Lower(t.name.value), i))
    && (f.inStock.Some? ==>
          (t.inStock.Some? && f.inStock.value == BoolText(t.inStock.value))
          || (t.inStock.None? && f.inStock.value == "null"))
    && (LabelsGiven(f) ==>
          t.labels.Some? && exists l :: l in t.labels.value && l in f.labels.value)
  }

  lemma {:induction false} AnyInIff(labels: seq<string>, wanted: seq<string>)
    ensures AnyIn(labels, wanted) <==> exists l :: l in labels && l in wanted
    decreases |labels|
  {
    if |labels| > 0 {
      AnyInIff(labels[1..], wanted);
      assert forall l :: l in labels <==> l == labels[0] || l in labels[1..];
    }
  }

  lemma InStockMeaning(text: string, stored: Option<bool>)
    requires ParseJson(text).Ok?
    ensures EqualsJson(stored, ParseJson(text).value)
        <==> (stored.Some? && text == BoolText(stored.value)) || (stored.None? && text == "null")
  {
    if stored.Some? {
      ParseBoolean(text, stored.value);
    }
  }

  /** The criteria built from a bag select exactly the toys the bag
      accepts: the conjuncts that are present all hold, and absent ones
      constrain nothing. */
  lemma CriteriaMeaning(f: ToyFilter, t: Toy)
    requires !BadInStock(f)
    ensures BuildCriteria(f).Ok?
    ensures Matches(BuildCriteria(f).value, t) <==> Accepts(f, t)
  {
    var c := BuildCriteria(f).value;
    if Given(f.name) && t.name.Some? {
      MatchMeansPosition(t.name.value, f.name.value);
    }
    if f.inStock.Some? {
      InStockMeaning(f.inStock.value, t.inStock);
    }
    if LabelsGiven(f) && t.labels.Some? {
      AnyInIff(t.labels.value, f.labels.value);
    }
  }

  /** An empty bag builds the empty criteria, which every toy matches. */
  lemma EmptyBagMatchesAll(f: ToyFilter, t: Toy)
    requires !Given(f.name) && f.inStock.None? && !LabelsGiven(f)
    ensures BuildCriteria(f) == Ok(MatchAll)
    ensures Matches(MatchAll, t)
  {
  }

  /** A toy whose name is the pattern itself, in any case, passes the name
      conjunct. */
  lemma ExactNamePasses(f: ToyFilter, t: Toy)
    requires Given(f.name) && t.name == f.name
    requires f.inStock.None? && !LabelsGiven(f)
    ensures BuildCriteria(f).Ok? && Matches(BuildCriteria(f).value, t)
  {
    NameMatchesItself(t.name.value);
  }

  /** A label list shared with the toy's labels passes the labels conjunct,
      and a list disjoint from them fails it. */
  lemma LabelsAnyOf(f: ToyFilter, t: Toy)
    requires LabelsGiven(f) && t.labels.Some?
    requires !Given(f.name) && f.inStock.None?
    ensures Matches(BuildCriteria(f).value, t)
        <==> exists l :: l in t.labels.value && l in f.labels.value
  {
    AnyInIff(t.labels.value, f.labels.value);
  }

  /** The criteria read only the name, stock and label parameters. */
  lemma SameCriteria(f: ToyFilter, g: ToyFilter)
    requires f.name == g.name && f.inStock == g.inStock && f.labels == g.labels
    ensures BuildCriteria(f) == BuildCriteria(g)
  {
  }
}

=== FILE: toy_query.dfy ===
/** The toy query: find by criteria, sort, skip a page's worth, limit to a
    page. */
module ToyQuery {
  import opened Results
  import opened JsValues
  import opened Toys
  import opened ToyCriteria
  import opened ToySort
  import opened Text

  /** `find(criteria)` in natural order. */
  function Filter(toys: seq<Toy>, c: Criteria): (r: seq<Toy>)
    ensures forall t :: t in r <==> t in toys && Matches(c, t)
    ensures |r| <= |toys|
    ensures multiset(r) <= multiset(toys)
  {
    if |toys| == 0 then []
    else
      var rest := Filter(toys[1..], c);
      assert toys == [toys[0]] + toys[1..];
      if Matches(c, toys[0]) then [toys[0]] + rest else rest
  }

  /** The page parameters after destructuring defaults: an absent index
      is page 0, an absent size is 4; a given value is used as is, zero and
      negative ones included. */
  function PageIdx(f: ToyFilter): (r: int)
    ensures f.pageIdx.None? ==> r == 0
    ensures f.pageIdx.Some? ==> r == f.pageIdx.value
  {
    f.pageIdx.GetOr(0)
  }

  function PageSize(f: ToyFilter): (r: int)
    ensures f.pageSize.None? ==> r == 4
    ensures f.pageSize.Some? ==> r == f.pageSize.value
  {
    f.pageSize.GetOr(4)
  }

  function Abs(n: int): nat {
    if n < 0 then -n else n
  }

  /** `.limit(n)`: zero means no limit, and a negative limit caps the
      result at its magnitude. */
  function Limit(n: int): (r: Option<nat>)
    ensures r.None? <==> n == 0
    ensures r.Some? ==> r.value == Abs(n) && r.value > 0
  {
    if n == 0 then None else Some(Abs(n))
  }

  function Min(a: int, b: int): int {
    if a <= b then a else b
  }

  /** `.skip(skip).limit(limit)`: the run of consecutive elements starting
      at `skip`, at most `limit` long. */
  function Page<T>(s: seq<T>, skip: nat, limit: Option<nat>): (r: seq<T>)
    ensures |r| == (if skip >= |s| then 0
                    else if limit.None? then |s| - skip
                    else Min(limit.value, |s| - skip))
    ensures forall i :: 0 <= i < |r| ==> r[i] == s[skip + i]
  {
    if skip >= |s| then []
    else if limit.None? || skip + limit.value > |s| then s[skip..]
    else s[skip..skip + limit.value]
  }

  /** `pageIdx * pageSize`, the number of ordered matches skipped. */
  function Skip(f: ToyFilter): int {
    PageIdx(f) * PageSize(f)
  }

  lemma PageMembers<T>(s: seq<T>, skip: nat, limit: Option<nat>)
    ensures forall t :: t in Page(s, skip, limit) ==> t in s
  {
    var r := Page(s, skip, limit);
    forall t | t in r
      ensures t in s
    {
      var i :| 0 <= i < |r| && r[i] == t;
      assert s[skip + i] == t;
    }
  }

  lemma PageOrdered(s: seq<Toy>, skip: nat, limit: Option<nat>, field: string, dir: int)
    requires Ordered(s, field, dir)
    ensures Ordered(Page(s, skip, limit), field, dir)
  {
    var r := Page(s, skip, limit);
    forall i, j | 0 <= i < j < |r|
      ensures Before(field, dir, r[i], r[j])
    {
      assert r[i] == s[skip + i] && r[j] == s[skip + j];
    }
  }

  /** Every toy that survives the criteria is one the bag accepts. */
  lemma FilterSound(toys: seq<Toy>, f: ToyFilter, s: seq<Toy>)
    requires !BadInStock(f)
    requires multiset(s) == multiset(Filter(toys, BuildCriteria(f).value))
    ensures forall t :: t in s ==> t in toys && Accepts(f, t)
  {
    forall t | t in s
      ensures t in toys && Accepts(f, t)
    {
      assert t in multiset(s);
      assert t in Filter(toys, BuildCriteria(f).value);
      CriteriaMeaning(f, t);
    }
  }

  /** `query` of the toy service: the criteria and sort built from the bag,
      defaults pageIdx 0 and pageSize 4, and the store's refusal of a
      negative skip. */
  function Query(toys: seq<Toy>, f: ToyFilter): (r: Result<seq<Toy>>)
    ensures r.Err? <==> BadInStock(f) || Skip(f) < 0
    ensures r.Ok? ==> forall t :: t in r.value ==> t in toys && Accepts(f, t)
    ensures r.Ok? && PageSize(f) != 0 ==> |r.value| <= Abs(PageSize(f))
    ensures r.Ok? && BuildSortOptions(f.sortBy).SortOn? ==>
              Ordered(r.value, BuildSortOptions(f.sortBy).field, BuildSortOptions(f.sortBy).dir)
  {
    match BuildCriteria(f)
    case Err(e) => Err(e)
    case Ok(c) =>
      if Skip(f) < 0 then Err(NegativeSkip)
      else
        var spec := BuildSortOptions(f.sortBy);
        var ordered := ApplySort(Filter(toys, c), spec);
        var r := Page(ordered, Skip(f), Limit(PageSize(f)));
        PageMembers(ordered, Skip(f), Limit(PageSize(f)));
        FilterSound(toys, f, ordered);
        if spec.SortOn? then
          PageOrdered(ordered, Skip(f), Limit(PageSize(f)), spec.field, spec.dir);
          Ok(r)
        else
          Ok(r)
  }

  /** The filtered, sorted toys a query pages through. */
  function OrderedMatches(toys: seq<Toy>, f: ToyFilter): seq<Toy>
    requires !BadInStock(f)
  {
    ApplySort(Filter(toys, BuildCriteria(f).value), BuildSortOptions(f.sortBy))
  }

  lemma QueryUnfold(toys: seq<Toy>, f: ToyFilter)
    requires !BadInStock(f) && Skip(f) >= 0
    ensures Query(toys, f) == Ok(Page(OrderedMatches(toys, f), Skip(f), Limit(PageSize(f))))
  {
  }

  /** Result `i` of a query is ordered match number `pageIdx * pageSize + i`. */
  lemma QueryIsPageOfOrderedMatches(toys: seq<Toy>, f: ToyFilter, i: nat)
    requires Query(toys, f).Ok?
    requires i < |Query(toys, f).value|
    ensures Skip(f) + i < |OrderedMatches(toys, f)|
    ensures Query(toys, f).value[i] == OrderedMatches(toys, f)[Skip(f) + i]
  {
    QueryUnfold(toys, f);
    var skip: nat := Skip(f);
    var ordered := OrderedMatches(toys, f);
    var r := Page(ordered, skip, Limit(PageSize(f)));
    assert Query(toys, f).value == r;
    assert i < |r| <= |ordered| - skip;
    assert r[i] == ordered[skip + i];
  }

  lemma DivBounds(m: nat, size: nat)
    requires size > 0
    ensures (m / size) * size <= m < (m / size) * size + size
  {
  }

  /** An accepted stored toy has a position among the ordered matches. */
  lemma AcceptedIsOrderedMatch(toys: seq<Toy>, f: ToyFilter, t: Toy) returns (m: nat)
    requires !BadInStock(f)
    requires t in toys && Accepts(f, t)
    ensures m < |OrderedMatches(toys, f)| && OrderedMatches(toys, f)[m] == t
  {
    CriteriaMeaning(f, t);
    assert t in Filter(toys, BuildCriteria(f).value);
    var ordered := OrderedMatches(toys, f);
    assert t in multiset(ordered);
    m :| 0 <= m < |ordered| && ordered[m] == t;
  }

  /** `t` is among the results of the query for page `k` of the bag `f`. */
  ghost predicate OnPage(toys: seq<Toy>, f: ToyFilter, k: nat, t: Toy) {
    var g := f.(pageIdx := Some(k));
    Query(toys, g).Ok? && t in Query(toys, g).value
  }

  /** Changing only the page index keeps the ordered matches and moves the
      window to `k * pageSize`. */
  lemma QueryOnPage(toys: seq<Toy>, f: ToyFilter, k: nat, skip: nat)
    requires !BadInStock(f)
    requires PageSize(f) > 0
    requires skip == k * PageSize(f)
    ensures var g := f.(pageIdx := Some(k));
            Query(toys, g) == Ok(Page(OrderedMatches(toys, f), skip, Limit(PageSize(f))))
  {
    var g := f.(pageIdx := Some(k));
    SameCriteria(f, g);
    assert g.sortBy == f.sortBy;
    assert OrderedMatches(toys, g) == OrderedMatches(toys, f);
    assert PageIdx(g) == k && PageSize(g) == PageSize(f);
    assert Skip(g) == skip;
    QueryUnfold(toys, g);
  }

  lemma ProductOfNats(a: nat, b: nat)
    ensures a * b >= 0
  {
  }

  /** Element `m` of a sequence cut into pages of `size` is on page
      `m / size`. */
  lemma PageOfIndex<T>(s: seq<T>, size: nat, m: nat) returns (k: nat)
    requires size > 0 && m < |s|
    ensures k == m / size
    ensures s[m] in Page(s, k * size, Some(size))
  {
    k := m / size;
    DivBounds(m, size);
    assert Page(s, k * size, Some(size))[m - k * size] == s[m];
  }

  /** Ordered match number `m` is on page `k`, the quotient of `m` by the
      page size. */
  lemma PageOfPosition(toys: seq<Toy>, f: ToyFilter, m: nat) returns (k: nat)
    requires !BadInStock(f)
    requires PageSize(f) > 0
    requires m < |OrderedMatches(toys, f)|
    ensures k == m / PageSize(f)
    ensures OnPage(toys, f, k, OrderedMatches(toys, f)[m])
  {
    var size: nat := PageSize(f);
    k := PageOfIndex(OrderedMatches(toys, f), size, m);
    ProductOfNats(k, size);
    var skip: nat := k * size;
    QueryOnPage(toys, f, k, skip);
  }

  /** Paging misses nothing: with a positive page size, every toy the bag
      accepts shows up on some page. This rests on the stable tie order
      `ApplySort` fixes; the store does not promise one across queries. */
  lemma PagesCoverMatches(toys: seq<Toy>, f: ToyFilter, t: Toy)
    requires !BadInStock(f)
    requires PageSize(f) > 0
    requires t in toys && Accepts(f, t)
    ensures exists k: nat :: OnPage(toys, f, k, t)
  {
    var m := AcceptedIsOrderedMatch(toys, f, t);
    var k := PageOfPosition(toys, f, m);
    assert OnPage(toys, f, k, t);
  }

  /** The first page holds the first `n` elements, or all of them when
      there are fewer. */
  lemma FirstPage<T>(s: seq<T>, n: nat)
    requires n > 0
    ensures Page(s, 0, Some(n)) == if |s| <= n then s else s[..n]
  {
    if |s| == 0 {
    } else if |s| <= n {
      assert s[0..] == s;
    } else {
      assert s[0..n] == s[..n];
    }
  }

  /** An empty bag returns the first four toys of the collection, in
      natural order. */
  lemma DefaultsGiveFirstFour(toys: seq<Toy>)
    ensures Query(toys, ToyFilter(None, None, None, None, None, None))
         == Ok(if |toys| <= 4 then toys else toys[..4])
  {
    var f := ToyFilter(None, None, None, None, None, None);
    FilterAll(toys);
    assert BuildCriteria(f) == Ok(MatchAll);
    assert OrderedMatches(toys, f) == toys;
    assert Skip(f) == 0 && Limit(PageSize(f)) == Some(4);
    QueryUnfold(toys, f);
    FirstPage(toys, 4);
  }

  lemma {:induction false} FilterAll(toys: seq<Toy>)
    ensures Filter(toys, MatchAll) == toys
  {
    if |toys| > 0 {
      FilterAll(toys[1..]);
      assert toys == [toys[0]] + toys[1..];
    }
  }

  /** On a two-toy collection, unsorted, first page of four: the query
      returns the toys that match, in order. */
  lemma QueryTwo(a: Toy, b: Toy, f: ToyFilter)
    requires !BadInStock(f) && f.sortBy.None?
    requires f.pageIdx == Some(0) && f.pageSize == Some(4)
    requires Matches(BuildCriteria(f).value, a) && !Matches(BuildCriteria(f).value, b)
    ensures Query([a, b], f) == Ok([a])
  {
    var c := BuildCriteria(f).value;
    assert Filter([a, b], c) == [a] by {
      assert [a, b][1..] == [b];
      assert [b][1..] == [];
    }
    assert OrderedMatches([a, b], f) == [a];
    assert Skip(f) == 0 && Limit(PageSize(f)) == Some(4);
    QueryUnfold([a, b], f);
    FirstPage([a], 4);
  }

  /** The catalogue example: "bear" in stock over an in-stock "Teddy Bear"
      and an out-of-stock "Bear Trap" returns just the teddy. */
  lemma TeddyBearExample()
    ensures var teddy := Toy("000000000000000000000001", Some("Teddy Bear"), Some(20), Some(true),
                             Some([]), [], None, None);
            var trap := Toy("000000000000000000000002", Some("Bear Trap"), Some(50), Some(false),
                            Some([]), [], None, None);
            var f := ToyFilter(Some("bear"), Some("true"), None, None, Some(0), Some(4));
            Query([teddy, trap], f) == Ok([teddy])
  {
    var teddy := Toy("000000000000000000000001", Some("Teddy Bear"), Some(20), Some(true),
                     Some([]), [], None, None);
    var trap := Toy("000000000000000000000002", Some("Bear Trap"), Some(50), Some(false),
                    Some([]), [], None, None);
    var f := ToyFilter(Some("bear"), Some("true"), None, None, Some(0), Some(4));
    var c := BearCriteria(f);
    TeddyMatches(c, teddy);
    TrapFails(c, trap);
    QueryTwo(teddy, trap, f);
  }

  lemma BearCriteria(f: ToyFilter) returns (c: Criteria)
    requires f == ToyFilter(Some("bear"), Some("true"), None, None, Some(0), Some(4))
    ensures BuildCriteria(f) == Ok(c)
    ensures c == Criteria(Some("bear"), Some(JBool(true)), None)
  {
    c := BuildCriteria(f).value;
  }

  lemma TeddyMatches(c: Criteria, teddy: Toy)
    requires c == Criteria(Some("bear"), Some(JBool(true)), None)
    requires teddy.name == Some("Teddy Bear") && teddy.inStock == Some(true)
    ensures Matches(c, teddy)
  {
    LowerTeddy();
    BearInTeddy();
  }

  lemma LowerTeddy()
    ensures Lower("Teddy Bear") == "teddy bear" && Lower("bear") == "bear"
  {
  }

  lemma BearInTeddy()
    ensures Occurs("bear", "teddy bear")
  {
    assert IsPrefix("bear", "teddy bear"[6..]);
    assert Occurs("bear", "teddy bear"[6..]);
    assert "teddy bear"[6..] == "teddy bear"[1..][1..][1..][1..][1..][1..];
  }

  lemma TrapFails(c: Criteria, trap: Toy)
    requires c == Criteria(Some("bear"), Some(JBool(true)), None)
    requires trap.inStock == Some(false)
    ensures !Matches(c, trap)
  {
  }
}

=== FILE: toy_service.dfy ===
/** Single-toy operations of the toy service: lookup, delete, save
    (insert or update) and the message list.

    The store's generated `_id`, the clock readings and the message id
    generator's output are parameters. */
module ToyService {
  import opened Results
  import opened ObjectIds
  import opened JsValues
  import opened Toys

  /** `get`: the toy with that id, with `createdAt` replaced by the time
      encoded in its id. A malformed id and a missing toy both fail. */
  function Get(toys: seq<Toy>, toyId: string): (r: Result<Toy>)
    ensures r.Err? <==> Parse(toyId).Err? || !HasId(toys, Parse(toyId).value)
    ensures r.Ok? ==> r.value.id == Parse(toyId).value
    ensures r.Ok? ==> r.value.createdAt == Some(Timestamp(r.value.id))
    ensures r.Ok? ==> exists t :: t in toys && t.(createdAt := r.value.createdAt) == r.value
  {
    match Parse(toyId)
    case Err(e) => Err(e)
    case Ok(oid) =>
      match FindToy(toys, oid)
      case None => Err(NotFound)
      case Some(i) =>
        var t := toys[i];
        assert t in toys;
        Ok(t.(createdAt := Some(Timestamp(oid))))
  }

  /** The collection without the element at `i`. */
  function Without(toys: seq<Toy>, i: nat): (r: seq<Toy>)
    requires i < |toys|
    ensures |r| == |toys| - 1
    ensures forall k :: 0 <= k < |r| ==> r[k] == toys[if k < i then k else k + 1]
    ensures multiset(r) == multiset(toys) - multiset{toys[i]}
  {
    assert toys == toys[..i] + [toys[i]] + toys[i + 1..];
    toys[..i] + toys[i + 1..]
  }

  /** `deleteOne({ _id: id })`: drops the first toy with that id and
      reports how many went. */
  function DeleteById(toys: seq<Toy>, id: ObjectId): (r: (seq<Toy>, nat))
    ensures r.1 <= 1
    ensures r.1 == 1 <==> HasId(toys, id)
    ensures |r.0| + r.1 == |toys|
    ensures multiset(r.0) <= multiset(toys)
    ensures forall t :: t in toys && t.id != id ==> t in r.0
    ensures r.1 == 1 ==> r.0 == Without(toys, FindToy(toys, id).value)
  {
    match FindToy(toys, id)
    case None => (toys, 0)
    case Some(i) =>
      var rest := Without(toys, i);
      assert forall t :: t in toys && t.id != id ==> t in rest by {
        forall t | t in toys && t.id != id
          ensures t in rest
        {
          assert t in multiset(toys);
          assert t != toys[i];
          assert t in multiset(rest);
        }
      }
      (rest, 1)
  }

  /** `remove`: the remaining toys and the `deletedCount`. */
  function Remove(toys: seq<Toy>, toyId: string): (r: Result<(seq<Toy>, nat)>)
    ensures r.Err? <==> Parse(toyId).Err?
    ensures r.Ok? ==> r.value.1 <= 1
    ensures r.Ok? ==> (r.value.1 == 1 <==> HasId(toys, Parse(toyId).value))
    ensures r.Ok? ==> |r.value.0| + r.value.1 == |toys|
    ensures r.Ok? ==> forall t :: t in toys && t.id != Parse(toyId).value ==> t in r.value.0
    ensures r.Ok? && r.value.1 == 0 ==> r.value.0 == toys
    ensures r.Ok? && r.value.1 == 1 ==>
              r.value.0 == Without(toys, FindToy(toys, Parse(toyId).value).value)
  {
    match Parse(toyId)
    case Err(e) => Err(e)
    case Ok(oid) => Ok(DeleteById(toys, oid))
  }

  lemma UniqueWithout(toys: seq<Toy>, i: nat)
    requires UniqueIds(toys)
    requires i < |toys|
    ensures UniqueIds(Without(toys, i))
    ensures forall t :: t in Without(toys, i) ==> t.id != toys[i].id
  {
    var rest := Without(toys, i);
    forall a, b | 0 <= a < b < |rest|
      ensures rest[a].id != rest[b].id
    {
      assert rest[a] == toys[if a < i then a else a + 1];
      assert rest[b] == toys[if b < i then b else b + 1];
    }
    forall t | t in rest
      ensures t.id != toys[i].id
    {
      var k :| 0 <= k < |rest| && rest[k] == t;
      assert rest[k] == toys[if k < i then k else k + 1];
    }
  }

  /** With unique ids, a removed toy can no longer be fetched, and the
      remaining collection still has unique ids. */
  lemma RemoveThenGet(toys: seq<Toy>, toyId: string)
    requires UniqueIds(toys)
    requires Remove(toys, toyId).Ok?
    ensures UniqueIds(Remove(toys, toyId).value.0)
    ensures Get(Remove(toys, toyId).value.0, toyId) == Err(NotFound)
  {
    var oid := Parse(toyId).value;
    var rest := Remove(toys, toyId).value.0;
    match FindToy(toys, oid)
    case None =>
    case Some(i) =>
      UniqueWithout(toys, i);
      assert !HasId(rest, oid);
  }

  /** What `save` returns: the inserted document, or the request record
      echoed back with its new `updatedAt`. */
  datatype Saved = Inserted(toy: Toy) | Updated(echo: ToyInput, updatedAt: int)

  /** The document an insert writes: the named fields only, with
      `inStock || false` and `labels || []`. */
  function NewToy(input: ToyInput, newId: ObjectId, createdNow: int, updatedNow: int): (t: Toy)
    ensures t.id == newId && t.name == input.name && t.price == input.price
    ensures t.inStock.Some? && (t.inStock == Some(true) <==> input.inStock == Some(true))
    ensures t.labels == Some(if input.labels.Some? then input.labels.value else [])
    ensures t.msgs == [] && t.createdAt == Some(createdNow) && t.updatedAt == Some(updatedNow)
  {
    Toy(newId, input.name, input.price,
        Some(input.inStock.GetOr(false)), Some(input.labels.GetOr([])),
        [], Some(createdNow), Some(updatedNow))
  }

  /** The `$set` an update applies: five fields overwritten, the id,
      messages and creation time kept. */
  function Overwrite(t: Toy, input: ToyInput, updatedNow: int): (u: Toy)
    ensures u.id == t.id && u.msgs == t.msgs && u.createdAt == t.createdAt
    ensures u.name == input.name && u.price == input.price
    ensures u.inStock == input.inStock && u.labels == input.labels
    ensures u.updatedAt == Some(updatedNow)
  {
    t.(name := input.name, price := input.price, inStock := input.inStock,
       labels := input.labels, updatedAt := Some(updatedNow))
  }

  /** `save`: a truthy `id` updates the toy it names and fails when none
      matches; otherwise a new toy is inserted under the store-generated
      `newId`, which the unique index rejects if already taken. The two
      clock readings are the two `Date.now()` calls of the insert; the
      update reads only `updatedNow`. */
  function Save(toys: seq<Toy>, input: ToyInput, newId: ObjectId, createdNow: int, updatedNow: int)
    : (r: Result<(seq<Toy>, Saved)>)
    ensures !Given(input.id) ==>
              (r.Ok? <==> !HasId(toys, newId))
              && (r.Ok? ==> r.value.0 == toys + [NewToy(input, newId, createdNow, updatedNow)]
                            && r.value.1 == Inserted(NewToy(input, newId, createdNow, updatedNow)))
    ensures Given(input.id) ==>
              (r.Ok? <==> Parse(input.id.value).Ok? && HasId(toys, Parse(input.id.value).value))
    ensures Given(input.id) && r.Ok? ==>
              var oid := Parse(input.id.value).value;
              var i := FindToy(toys, oid).value;
              && r.value.1 == Updated(input, updatedNow)
              && |r.value.0| == |toys|
              && r.value.0[i] == Overwrite(toys[i], input, updatedNow)
              && forall j :: 0 <= j < |toys| && j != i ==> r.value.0[j] == toys[j]
  {
    if Given(input.id) then
      match Parse(input.id.value)
      case Err(e) => Err(e)
      case Ok(oid) =>
        match FindToy(toys, oid)
        case None => Err(NotFound)
        case Some(i) => Ok((toys[i := Overwrite(toys[i], input, updatedNow)], Updated(input, updatedNow)))
    else if HasId(toys, newId) then
      Err(DuplicateKey)
    else
      var t := NewToy(input, newId, createdNow, updatedNow);
      Ok((toys + [t], Inserted(t)))
  }

  /** Saves keep the ids unique. */
  lemma SavePreservesUniqueIds(toys: seq<Toy>, input: ToyInput, newId: ObjectId, createdNow: int, updatedNow: int)
    requires UniqueIds(toys)
    requires Save(toys, input, newId, createdNow, updatedNow).Ok?
    ensures UniqueIds(Save(toys, input, newId, createdNow, updatedNow).value.0)
  {
    var after := Save(toys, input, newId, createdNow, updatedNow).value.0;
    if !Given(input.id) {
      forall i, j | 0 <= i < j < |after|
        ensures after[i].id != after[j].id
      {
        if j == |toys| {
          assert toys[i] in toys;
        }
      }
    }
  }

  /** Create, then fetch by the returned id: the same name, price, stock
      flag and labels, with `createdAt` read from the id. */
  lemma InsertThenGet(toys: seq<Toy>, input: ToyInput, newId: ObjectId, createdNow: int, updatedNow: int)
    requires !Given(input.id)
    requires Save(toys, input, newId, createdNow, updatedNow).Ok?
    ensures var saved := Save(toys, input, newId, createdNow, updatedNow).value;
            saved.1.Inserted?
            && Get(saved.0, saved.1.toy.id) == Ok(saved.1.toy.(createdAt := Some(Timestamp(newId))))
  {
    var after := toys + [NewToy(input, newId, createdNow, updatedNow)];
    ParseOfCanonical(newId);
    assert FindToy(after, newId) == Some(|toys|) by {
      FindToyAppend(toys, NewToy(input, newId, createdNow, updatedNow));
    }
  }

  lemma {:induction false} FindToyAppend(toys: seq<Toy>, t: Toy)
    requires !HasId(toys, t.id)
    ensures FindToy(toys + [t], t.id) == Some(|toys|)
  {
    if |toys| > 0 {
      assert (toys + [t])[1..] == toys[1..] + [t];
      assert !HasId(toys[1..], t.id) by {
        assert forall u :: u in toys[1..] ==> u in toys;
      }
      FindToyAppend(toys[1..], t);
      assert toys[0] in toys;
    }
  }

  /** Update, then fetch: the five written fields come back as written,
      the messages as they were. */
  lemma UpdateThenGet(toys: seq<Toy>, input: ToyInput, newId: ObjectId, createdNow: int, updatedNow: int)
    requires Given(input.id)
    requires Save(toys, input, newId, createdNow, updatedNow).Ok?
    ensures var after := Save(toys, input, newId, createdNow, updatedNow).value.0;
            var old_ := Get(toys, input.id.value);
            var now := Get(after, input.id.value);
            old_.Ok? && now.Ok?
            && now.value.name == input.name && now.value.price == input.price
            && now.value.inStock == input.inStock && now.value.labels == input.labels
            && now.value.updatedAt == Some(updatedNow)
            && now.value.msgs == old_.value.msgs
  {
    var oid := Parse(input.id.value).value;
    var i := FindToy(toys, oid).value;
    var after := Save(toys, input, newId, createdNow, updatedNow).value.0;
    assert FindToy(after, oid) == Some(i) by {
      FindToySameIds(toys, after, oid);
    }
  }

  lemma {:induction false} FindToySameIds(a: seq<Toy>, b: seq<Toy>, id: ObjectId)
    requires |a| == |b|
    requires forall k :: 0 <= k < |a| ==> a[k].id == b[k].id
    ensures FindToy(a, id) == FindToy(b, id)
  {
    if |a| > 0 {
      FindToySameIds(a[1..], b[1..], id);
    }
  }

  // ---------------------------------------------------------------- messages

  /** `$push: { msgs: m }` on the first toy with that id; no match changes
      nothing. */
  function PushMsg(toys: seq<Toy>, id: ObjectId, m: Msg): (r: seq<Toy>)
    ensures |r| == |toys|
    ensures forall j :: 0 <= j < |toys| ==> r[j].id == toys[j].id
    ensures FindToy(toys, id).None? ==> r == toys
    ensures FindToy(toys, id).Some? ==>
              var i := FindToy(toys, id).value;
              && r[i] == toys[i].(msgs := toys[i].msgs + [m])
              && forall j :: 0 <= j < |toys| && j != i ==> r[j] == toys[j]
  {
    match FindToy(toys, id)
    case None => toys
    case Some(i) => toys[i := toys[i].(msgs := toys[i].msgs + [m])]
  }

  /** `addToyMsg`: the message gets the generated id `msgId`, is appended
      to the toy's list, and is returned. An unknown toy is not an error. */
  function AddMsg(toys: seq<Toy>, toyId: string, input: MsgInput, msgId: string): (r: Result<(seq<Toy>, Msg)>)
    ensures r.Err? <==> Parse(toyId).Err?
    ensures r.Ok? ==> r.value.1 == Msg(msgId, input.txt, input.author, input.createdAt)
    ensures r.Ok? ==> |r.value.0| == |toys|
    ensures r.Ok? ==> forall j :: 0 <= j < |toys| ==> r.value.0[j].id == toys[j].id
    ensures r.Ok? && FindToy(toys, Parse(toyId).value).Some? ==>
              var i := FindToy(toys, Parse(toyId).value).value;
              && r.value.0[i].msgs == toys[i].msgs + [r.value.1]
              && r.value.0[i] == toys[i].(msgs := r.value.0[i].msgs)
              && forall j :: 0 <= j < |toys| && j != i ==> r.value.0[j] == toys[j]
    ensures r.Ok? && !HasId(toys, Parse(toyId).value) ==> r.value.0 == toys
  {
    var m := Msg(msgId, input.txt, input.author, input.createdAt);
    match Parse(toyId)
    case Err(e) => Err(e)
    case Ok(oid) => Ok((PushMsg(toys, oid, m), m))
  }

  /** `$pull: { msgs: { id: msgId } }` on one list: every message with that
      id goes, the rest stay in order. */
  function PullMsgs(msgs: seq<Msg>, msgId: string): (r: seq<Msg>)
    ensures forall m :: m in r <==> m in msgs && m.id != msgId
    ensures |r| <= |msgs|
  {
    if |msgs| == 0 then []
    else
      var rest := PullMsgs(msgs[1..], msgId);
      assert msgs == [msgs[0]] + msgs[1..];
      if msgs[0].id == msgId then rest else [msgs[0]] + rest
  }

  /** Pulling from a concatenation pulls from each part: the survivors
      keep their relative order. */
  lemma {:induction false} PullDistributes(a: seq<Msg>, b: seq<Msg>, msgId: string)
    ensures PullMsgs(a + b, msgId) == PullMsgs(a, msgId) + PullMsgs(b, msgId)
    decreases |a|
  {
    if |a| > 0 {
      assert (a + b)[1..] == a[1..] + b;
      PullDistributes(a[1..], b, msgId);
    } else {
      assert a + b == b;
    }
  }

  /** A list without the id is left exactly as it is. */
  lemma {:induction false} PullAbsent(msgs: seq<Msg>, msgId: string)
    requires forall m :: m in msgs ==> m.id != msgId
    ensures PullMsgs(msgs, msgId) == msgs
  {
    if |msgs| > 0 {
      assert msgs == [msgs[0]] + msgs[1..];
      PullAbsent(msgs[1..], msgId);
    }
  }

  function PullFrom(toys: seq<Toy>, id: ObjectId, msgId: string): (r: seq<Toy>)
    ensures |r| == |toys|
    ensures forall j :: 0 <= j < |toys| ==> r[j].id == toys[j].id
    ensures FindToy(toys, id).None? ==> r == toys
    ensures FindToy(toys, id).Some? ==>
              var i := FindToy(toys, id).value;
              && r[i] == toys[i].(msgs := PullMsgs(toys[i].msgs, msgId))
              && forall j :: 0 <= j < |toys| && j != i ==> r[j] == toys[j]
  {
    match FindToy(toys, id)
    case None => toys
    case Some(i) => toys[i := toys[i].(msgs := PullMsgs(toys[i].msgs, msgId))]
  }

  /** `removeToyMsg`: returns `msgId`; every message with that id leaves
      the toy's list. An unknown toy or message is not an error. */
  function RemoveMsg(toys: seq<Toy>, toyId: string, msgId: string): (r: Result<(seq<Toy>, string)>)
    ensures r.Err? <==> Parse(toyId).Err?
    ensures r.Ok? ==> r.value.1 == msgId
    ensures r.Ok? ==> |r.value.0| == |toys|
    ensures r.Ok? ==> forall j :: 0 <= j < |toys| ==> r.value.0[j].id == toys[j].id
    ensures r.Ok? && FindToy(toys, Parse(toyId).value).Some? ==>
              var i := FindToy(toys, Parse(toyId).value).value;
              && (forall m :: m in r.value.0[i].msgs <==> m in toys[i].msgs && m.id != msgId)
              && r.value.0[i] == toys[i].(msgs := r.value.0[i].msgs)
              && forall j :: 0 <= j < |toys| && j != i ==> r.value.0[j] == toys[j]
  {
    match Parse(toyId)
    case Err(e) => Err(e)
    case Ok(oid) => Ok((PullFrom(toys, oid, msgId), msgId))
  }

  /** Removing a message twice is removing it once. */
  lemma RemoveMsgIdempotent(toys: seq<Toy>, toyId: string, msgId: string)
    requires RemoveMsg(toys, toyId, msgId).Ok?
    ensures var once := RemoveMsg(toys, toyId, msgId).value.0;
            RemoveMsg(once, toyId, msgId) == Ok((once, msgId))
  {
    var oid := Parse(toyId).value;
    var once := RemoveMsg(toys, toyId, msgId).value.0;
    FindToySameIds(toys, once, oid);
    match FindToy(toys, oid)
    case None =>
    case Some(i) =>
      PullAbsent(once[i].msgs, msgId);
      assert once[i := once[i].(msgs := PullMsgs(once[i].msgs, msgId))] == once;
  }

  /** Adding a message under a fresh id and then removing that id gives
      the collection back. */
  lemma AddThenRemoveMsg(toys: seq<Toy>, toyId: string, input: MsgInput, msgId: string)
    requires AddMsg(toys, toyId, input, msgId).Ok?
    requires forall t, m :: t in toys && m in t.msgs ==> m.id != msgId
    ensures RemoveMsg(AddMsg(toys, toyId, input, msgId).value.0, toyId, msgId) == Ok((toys, msgId))
  {
    var oid := Parse(toyId).value;
    var added := AddMsg(toys, toyId, input, msgId).value;
    FindToySameIds(toys, added.0, oid);
    match FindToy(toys, oid)
    case None =>
    case Some(i) =>
      assert toys[i] in toys;
      PullDistributes(toys[i].msgs, [added.1], msgId);
      PullAbsent(toys[i].msgs, msgId);
      assert PullMsgs([added.1], msgId) == [];
      var back := PullFrom(added.0, oid, msgId);
      assert back[i] == toys[i];
      assert back == toys;
  }

  /** Message operations never change which toys exist. */
  lemma MsgOpsKeepIds(toys: seq<Toy>, toyId: string, input: MsgInput, msgId: string)
    requires UniqueIds(toys)
    requires Parse(toyId).Ok?
    ensures UniqueIds(AddMsg(toys, toyId, input, msgId).value.0)
    ensures UniqueIds(RemoveMsg(toys, toyId, msgId).value.0)
  {
  }
}

=== FILE: toy_sort.dfy ===
/** The toy query's sort planner and the ordering the store applies.

    Sort keys follow the store's cross-type order (null and missing values
    first, then numbers, strings, ids, booleans); strings and ids compare
    code point by code point, which is the order of their UTF-8 bytes. Ties keep the natural order of the collection.
 */
module ToySort {
  import opened Results
  import opened ObjectIds
  import opened JsValues
  import opened Toys

  /** The sort document: no key, or one field with direction 1 or -1. */
  datatype SortSpec = Unsorted | SortOn(field: string, dir: int)

  /** `_buildSortOptions`: no key unless `sortBy` and its `type` are truthy;
      otherwise that one field, descending exactly when `desc` is truthy. */
  function BuildSortOptions(sortBy: Option<SortBy>): (r: SortSpec)
    ensures r.Unsorted? <==> sortBy.None? || !Given(sortBy.value.field)
    ensures r.SortOn? ==> r.field == sortBy.value.field.value
    ensures r.SortOn? ==> (r.dir == -1 <==> Truthy(sortBy.value.desc))
    ensures r.SortOn? ==> (r.dir == 1 <==> !Truthy(sortBy.value.desc))
  {
    if sortBy.None? || !Given(sortBy.value.field) then Unsorted
    else SortOn(sortBy.value.field.value, if Truthy(sortBy.value.desc) then -1 else 1)
  }

  /** A request flag is text, and the text "false" is truthy, so it sorts
      descending. */
  lemma FalseTextSortsDescending(field: string)
    requires field != ""
    ensures BuildSortOptions(Some(SortBy(Some(field), Str("false")))) == SortOn(field, -1)
  {
  }

  /** The value a toy holds under a sort field. */
  datatype Key = KNull | KNum(n: int) | KStr(s: string) | KId(id: string) | KBool(b: bool)

  function Rank(k: Key): nat {
    match k
    case KNull => 0
    case KNum(_) => 1
    case KStr(_) => 2
    case KId(_) => 3
    case KBool(_) => 4
  }

  function OptNum(v: Option<int>): Key {
    if v.Some? then KNum(v.value) else KNull
  }

  /** The key of a toy under a field name; an unknown field is missing in
      every toy, so all toys tie. */
  function KeyOf(t: Toy, field: string): Key {
    if field == "_id" then KId(t.id)
    else if field == "name" then (if t.name.Some? then KStr(t.name.value) else KNull)
    else if field == "price" then OptNum(t.price)
    else if field == "inStock" then (if t.inStock.Some? then KBool(t.inStock.value) else KNull)
    else if field == "createdAt" then OptNum(t.createdAt)
    else if field == "updatedAt" then OptNum(t.updatedAt)
    else KNull
  }

  /** Code-point lexicographic order on strings. */
  predicate StrLe(a: string, b: string)
    decreases |a|
  {
    |a| == 0 || (|b| > 0 && (a[0] < b[0] || (a[0] == b[0] && StrLe(a[1..], b[1..]))))
  }

  lemma {:induction false} StrLeTotal(a: string, b: string)
    ensures StrLe(a, b) || StrLe(b, a)
    decreases |a|
  {
    if |a| > 0 && |b| > 0 && a[0] == b[0] {
      StrLeTotal(a[1..], b[1..]);
    }
  }

  lemma {:induction false} StrLeTrans(a: string, b: string, c: string)
    requires StrLe(a, b) && StrLe(b, c)
    ensures StrLe(a, c)
    decreases |a|
  {
    if |a| > 0 && a[0] == b[0] && b[0] == c[0] {
      StrLeTrans(a[1..], b[1..], c[1..]);
    }
  }

  predicate KeyLe(a: Key, b: Key) {
    if Rank(a) != Rank(b) then Rank(a) < Rank(b)
    else match (a, b)
      case (KNum(x), KNum(y)) => x <= y
      case (KStr(x), KStr(y)) => StrLe(x, y)
      case (KId(x), KId(y)) => StrLe(x, y)
      case (KBool(x), KBool(y)) => !x || y
      case _ => true
  }

  lemma KeyLeTotal(a: Key, b: Key)
    ensures KeyLe(a, b) || KeyLe(b, a)
  {
    match (a, b)
    case (KStr(x), KStr(y)) => StrLeTotal(x, y);
    case (KId(x), KId(y)) => StrLeTotal(x, y);
    case _ =>
  }

  lemma KeyLeTrans(a: Key, b: Key, c: Key)
    requires KeyLe(a, b) && KeyLe(b, c)
    ensures KeyLe(a, c)
  {
    if Rank(a) == Rank(b) == Rank(c) {
      match (a, b, c)
      case (KStr(x), KStr(y), KStr(z)) => StrLeTrans(x, y, z);
      case (KId(x), KId(y), KId(z)) => StrLeTrans(x, y, z);
      case _ =>
    }
  }

  /** `a` may come before `b` under direction `dir`. */
  predicate Before(field: string, dir: int, a: Toy, b: Toy) {
    if dir == -1 then KeyLe(KeyOf(b, field), KeyOf(a, field))
    else KeyLe(KeyOf(a, field), KeyOf(b, field))
  }

  lemma BeforeTotal(field: string, dir: int, a: Toy, b: Toy)
    ensures Before(field, dir, a, b) || Before(field, dir, b, a)
  {
    KeyLeTotal(KeyOf(a, field), KeyOf(b, field));
  }

  lemma BeforeTrans(field: string, dir: int, a: Toy, b: Toy, c: Toy)
    requires Before(field, dir, a, b) && Before(field, dir, b, c)
    ensures Before(field, dir, a, c)
  {
    if dir == -1 {
      KeyLeTrans(KeyOf(c, field), KeyOf(b, field), KeyOf(a, field));
    } else {
      KeyLeTrans(KeyOf(a, field), KeyOf(b, field), KeyOf(c, field));
    }
  }

  ghost predicate Ordered(s: seq<Toy>, field: string, dir: int) {
    forall i, j :: 0 <= i < j < |s| ==> Before(field, dir, s[i], s[j])
  }

  /** Places `x` ahead of the first element it may precede, so that `x`
      stays ahead of the toys it ties with. */
  function Insert(x: Toy, s: seq<Toy>, field: string, dir: int): (r: seq<Toy>)
    requires Ordered(s, field, dir)
    ensures Ordered(r, field, dir)
    ensures multiset(r) == multiset(s) + multiset{x}
    decreases |s|
  {
    if |s| == 0 then [x]
    else if Before(field, dir, x, s[0]) then
      assert forall j :: 0 <= j < |s| ==> Before(field, dir, x, s[j]) by {
        forall j | 0 <= j < |s|
          ensures Before(field, dir, x, s[j])
        {
          if j > 0 {
            BeforeTrans(field, dir, x, s[0], s[j]);
          }
        }
      }
      [x] + s
    else
      var rest := Insert(x, s[1..], field, dir);
      assert s == [s[0]] + s[1..];
      BeforeTotal(field, dir, x, s[0]);
      assert forall j :: 0 <= j < |rest| ==> Before(field, dir, s[0], rest[j]) by {
        forall j | 0 <= j < |rest|
          ensures Before(field, dir, s[0], rest[j])
        {
          var z := rest[j];
          assert z in multiset(rest);
          if z != x {
            assert z in multiset(s[1..]);
            var k :| 0 <= k < |s[1..]| && s[1..][k] == z;
            assert s[k + 1] == z;
          }
        }
      }
      [s[0]] + rest
  }

  /** Orders toys by one field: a permutation of the input in which every
      toy may come before each later one. */
  function SortToys(s: seq<Toy>, field: string, dir: int): (r: seq<Toy>)
    ensures Ordered(r, field, dir)
    ensures multiset(r) == multiset(s)
    decreases |s|
  {
    if |s| == 0 then []
    else
      assert s == [s[0]] + s[1..];
      Insert(s[0], SortToys(s[1..], field, dir), field, dir)
  }

  /** `.sort(spec)`: natural order without a key. */
  function ApplySort(s: seq<Toy>, spec: SortSpec): (r: seq<Toy>)
    ensures multiset(r) == multiset(s)
    ensures spec.SortOn? ==> Ordered(r, spec.field, spec.dir)
    ensures spec.Unsorted? ==> r == s
  {
    match spec
    case Unsorted => s
    case SortOn(field, dir) => SortToys(s, field, dir)
  }

  /** Sorting an already ordered sequence changes nothing, in particular a
      second sort is idle. */
  lemma {:induction false} SortOrderedIsIdentity(s: seq<Toy>, field: string, dir: int)
    requires Ordered(s, field, dir)
    ensures SortToys(s, field, dir) == s
    decreases |s|
  {
    if |s| > 0 {
      assert Ordered(s[1..], field, dir);
      SortOrderedIsIdentity(s[1..], field, dir);
      if |s| > 1 {
        assert Before(field, dir, s[0], s[1]);
      }
    }
  }
}
